=== FILE: README.md ===
# chrome-proxy: proxy selection, in Dafny

A model of the proxy-selection core of the `chrome-proxy` browser extension. The extension
reads a proxy connection string (`socks5://host:port`, `http://…`, …) and an allow-list of
domains. While it is enabled, it routes the listed domains and their subdomains through that
proxy with a generated PAC (proxy auto-config) script. Every other host connects directly.

The modules follow the two source files:

- `Wrappers` (`wrappers.dfy`): the `Option` type. `None` stands for JavaScript's `null`, `NaN`,
  or "nothing is written".
- `Text` (`text.dfy`): the JavaScript string primitives the code relies on:
  - `trim`, over the ECMAScript WhiteSpace and LineTerminator code points;
  - `toLowerCase`, on ASCII letters;
  - `parseInt(_, 10)`;
  - the decimal rendering of a number in a template literal.
- `DomainList` (`domain_list.dfy`): the allow-list as a sequence of strings:
  - `Set` insertion and `Array.from(new Set(…))`, which keep insertion order;
  - `filter` removal;
  - the context-menu toggle and the membership test behind the menu title.
- `ProxyUrl` (`proxy_url.dfy`): `parseProxyUrl`, the checks applied to what the URL parser
  returns.
- `Pac` (`pac.dfy`): `buildPacScript`, and the `FindProxyForURL` function it embeds. The
  script is modelled as the two values it embeds: the domain list and the directive string
  `KEYWORD host:port`.
- `OptionsPage` (`options_page.dfy`): `normalizeDomain`, `addDomain` and the blank-field guard
  of `saveConfig`. `removeDomain` is `DomainList.Remove`.
- `Background` (`background.dfy`): the worker as a state machine.
  - The state holds the globals `enabled`, `config.proxyUrl`, `proxyConfig` and
    `allowedDomains`.
  - The events are the two start-up storage reads, the toolbar click, the `reloadProxy`
    message and the storage-change notifications.
  - Every handler maps a state and an event to a new state. It also returns the effects it
    requests: committing a proxy setting (PAC script or direct), storing `enabled`, or opening
    the options page.

The WHATWG URL parser (`new URL(value)`) is foreign code. `ProxyUrl.ParseProxyUrl` takes its
output as a parameter: protocol, hostname and port string, or `None` when it throws.
`Background` takes the whole parser as a function parameter.

The central properties:

- A host is proxied exactly when its lower-cased form equals a listed domain or ends with
  `.` followed by one. A host that merely ends with the domain's text is not proxied.
- Routing ignores letter case on both sides.
- A generated directive reads back as the scheme's keyword, the host and the port.
- Every accepted connection string comes with a positive port. Every proxy with a host and a
  positive port is read back from its own URL parts.
- An add always leaves a list without duplicates. A remove or a toggle keeps a list without
  duplicates free of them; a toggle keeps duplicates already in the list.
- The normalized domain is a lower-cased piece of the input, without `/` or space. Whitespace
  at the ends of the input never changes it, and a host holding a space is rejected with or
  without a scheme or path. Adding the
  same domain twice stores the same list as adding it once.
- Whenever a handler commits a proxy setting, the last setting it commits is the one the new
  state calls for: the PAC script while enabled with a proxy that parses, direct otherwise. A
  local change that carries both the list and `enabled: false` commits the PAC script first and
  then direct. A handler that
  commits nothing leaves that desired setting unchanged, with one exception: the start-up read
  of the connection string (see Findings).

The options page rejects a domain only for the space character U+0020, after trimming. Other
whitespace inside the input, such as a tab, is kept (`OptionsPage.NormalizeKeepsInnerTab`).

## Model

| member | source | states |
|---|---|---|
| Text.Lower | src/background.js:67 | `toLowerCase` keeps the length and lower-cases every character in place. A character that is not a capital stays as it is, no capital is left, and whitespace stays whitespace. Which letter a capital becomes is stated by `Text.LowerCapital`. |
| Text.LowerCapital | src/background.js:67 | The capital `'A' + k` lower-cases to the `k`-th letter of the small alphabet `a`..`z`, written out as its own table. |
| Text.LowerIgnoresCase | src/background.js:79 | Two strings that differ only where one has a capital and the other the matching small letter lower-case to the same string. |
| Text.LowerIdempotent | src/background.js:79 | Lower-casing an already lower-cased host or domain changes nothing. |
| Text.NatToString | src/background.js:74 | `${port}` renders a port as a non-empty run of decimal digits. A leading `0` occurs only for the port 0. |
| Text.CanonicalNatToString | src/background.js:74 | Every rendering is canonical: digits only, with no leading zero except in `0`. |
| Text.NatToStringOfCanonical | src/background.js:74 | Every canonical digit string is the rendering of its own value, so the rendering is onto the canonical strings. |
| Text.Trim | src/options.js:42 | `trim` returns the slice of the input between its leading and trailing whitespace. It is empty exactly when the input is all whitespace, and otherwise starts and ends with a non-whitespace character. |
| Text.ParseInt | src/background.js:213 | `parseInt(port, 10)` is `NaN` (`None`) exactly when the string is empty or does not start with a digit. On a string of digits it is the digits' value. |
| Text.ParseIntOfNatToString | src/background.js:74 | The port written into a directive by `${port}` reads back as the same number. |
| Text.NatToStringInjective | src/background.js:74 | Different ports give different decimal renderings. |
| DomainList.Insert | src/options.js:76-77 | `Set.add` keeps the old elements in order as a prefix. It adds the new element at the end only when it is absent. It preserves the absence of duplicates. |
| DomainList.Dedup | src/background.js:67 | `Array.from(new Set(list))` has no duplicates, holds exactly the elements of the list, and is no longer than it. |
| DomainList.DedupFirstOccurrenceOrder | src/background.js:67 | The de-duplicated list keeps the elements in the order of their first occurrence. |
| DomainList.DedupOfNoDuplicates | src/options.js:76 | A list without duplicates passes through `new Set` unchanged. |
| DomainList.DedupIdempotent | src/background.js:67 | De-duplicating twice is de-duplicating once. |
| DomainList.Remove | src/options.js:92 | `filter(item => item !== domain)` removes every copy of the domain and keeps the count of every other element. |
| DomainList.RemoveConcat | src/options.js:92 | Removal works piece by piece, so the kept elements stay in their original order. |
| DomainList.RemoveAbsent | src/options.js:92 | Removing an unlisted domain leaves the list unchanged. |
| DomainList.RemoveIdempotent | src/options.js:92 | Removing the same domain twice is removing it once. |
| DomainList.RemoveKeepsNoDuplicates | src/options.js:92 | Removal keeps a duplicate-free list duplicate-free. |
| DomainList.Toggle | src/background.js:150-153 | After the toggle the domain is listed exactly when it was not listed before. No other domain's membership changes. A present domain has every copy removed as by `filter`, and an absent one is appended at the end. |
| DomainList.ToggleTwiceAbsent | src/background.js:150-153 | Toggling an unlisted domain twice restores the original list. |
| DomainList.ToggleKeepsNoDuplicates | src/background.js:150-153 | The toggle keeps a duplicate-free list duplicate-free. |
| DomainList.MenuTitleAfterToggle | src/background.js:51-58 | After a toggle of a non-empty domain, the menu offers adding it when it had been listed and removing it when it had not. |
| DomainList.MenuToggle | src/background.js:144-160 | For an empty active-tab domain nothing is written. Otherwise the written list is the toggled list, the menu title flips, and every other domain's membership is kept. |
| ProxyUrl.SchemeFromName | src/background.js:211 | A scheme name is accepted exactly when it is one of `socks5`, `socks5h`, `http` or `https`. The accepted scheme has that name. |
| ProxyUrl.RemoveFirstColon | src/background.js:210 | `replace(":", "")` cuts out exactly the first colon: the text before it and the text after it are kept. Text without a colon is unchanged. |
| ProxyUrl.RemoveFirstColonOfName | src/background.js:210 | A protocol `name:` becomes `name`. |
| ProxyUrl.PortNumberOfNatToString | src/background.js:213-214 | The decimal rendering of a port is accepted and read back as that port, except for 0, which is rejected. |
| ProxyUrl.ParseProxyUrl | src/background.js:206-219 | Each rejection separately gives `null`: an empty value, a throwing URL parser, a scheme outside the four, an empty host, a missing or zero port. Otherwise the result carries the scheme, the host and the parsed port. |
| ProxyUrl.ParseProxyUrlRoundTrip | src/background.js:206-219 | Every proxy with a non-empty host and a positive port is read back exactly from the URL parts the parser reports for it. |
| ProxyUrl.AcceptedPortInRange | src/background.js:213-214 | For the port strings a URL parser produces, an accepted port lies in 1..65535. |
| ProxyUrl.ParseSocksExample | src/background.js:206-219 | `socks5://1.2.3.4:1080` gives the SOCKS5 proxy at 1.2.3.4, port 1080. |
| ProxyUrl.RejectedExamples | src/background.js:207-217 | A URL relying on the default port, port 0 and an unparsable string are all rejected. |
| ProxyUrl.UnsupportedSchemeRejected | src/background.js:210-211 | A URL with the `ftp:` protocol is rejected, whatever its host and port. |
| Pac.Keyword | src/background.js:68-73 | Each scheme's keyword is a non-empty word with no space and no colon. |
| Pac.KeywordsDistinct | src/background.js:68-73 | Two schemes share a keyword exactly when they are the same scheme or both SOCKS (`socks5`, `socks5h`). |
| Pac.Directive | src/background.js:74 | The directive `${keyword} ${host}:${port}` reads back, at its first space and the last colon, as the scheme's keyword, the host and the port, whatever characters the host holds. The reading accepts only a canonically written port. |
| Pac.ParseDirectiveExact | src/background.js:74 | A text that reads back as a keyword, a host and a port is exactly `keyword host:port` with the port written as `${port}` writes it. |
| Pac.DirectiveExact | src/background.js:74 | No text other than the directive itself reads back as the directive's parts, so the read-back fixes the directive's text. |
| Pac.HostPortOf | src/background.js:74 | `host:port`, with the port written as `${port}` writes it, reads back at its last colon as that host and port, whatever the host holds. |
| Pac.HostPortExact | src/background.js:74 | Only `host:port` with the port written as `${port}` writes it reads back as that host and port. |
| Pac.ParseDirectiveOf | src/background.js:74 | Any keyword without a space, host and port put together this way read back as themselves. |
| Pac.LowerAll | src/background.js:67 | The mapped list has the same length, each entry is the lower-cased entry at the same position, and no entry has an upper-case letter. |
| Pac.LowerAllIdempotent | src/background.js:67 | Mapping `toLowerCase` over the list a second time changes nothing. |
| Pac.BuildPacScript | src/background.js:66-75 | The embedded list has no duplicates and holds exactly the lower-cased allowed domains. Its entries have no upper-case letters. The directive is `KEYWORD host:port` for the scheme's keyword. |
| Pac.FindProxyForUrl | src/background.js:77-87 | `FindProxyForURL` returns the directive when some entry matches the lower-cased host, and `DIRECT` when none does. |
| Pac.MatchesIffDotBoundary | src/background.js:82 | A host matches a domain exactly when it is the domain, or some prefix followed by `.` and the domain. |
| Pac.MatchesSubdomain | src/background.js:82 | Every subdomain of a matching host matches too. |
| Pac.MatchExamples | src/background.js:80-86 | With `["example.com"]`, `sub.example.com` and `example.com` match and `notexample.com` does not. |
| Pac.BuiltScriptRouting | src/background.js:67 | A host is proxied by a built script exactly when its lower-case form matches the lower-case form of some allowed domain. |
| Pac.DirectiveIsNotDirect | src/background.js:83-86 | A proxied answer is never the direct answer. |
| Pac.BuildExample | src/background.js:66-75 | `["a.com"]` with the HTTP proxy 10.0.0.1:8080 gives the list `["a.com"]` and the directive `PROXY 10.0.0.1:8080`. |
| Pac.HttpDirectiveExample | src/background.js:74 | The HTTP proxy 10.0.0.1:8080 gives the directive `PROXY 10.0.0.1:8080`. |
| OptionsPage.SchemePrefixLength | src/options.js:134 | The pattern `^https?:\/\/` matches 7 characters exactly when the text starts with `http://`, 8 exactly when it starts with `https://`, and none otherwise. |
| OptionsPage.StripScheme | src/options.js:134 | A leading `http://` or `https://` is removed and the rest kept. Any other text is unchanged, in particular text without `/`. |
| OptionsPage.BeforeSlash | src/options.js:134 | `split("/")[0]` is the prefix up to the first `/`: it holds no `/`, and it is followed by `/` unless it is the whole text. |
| OptionsPage.NormalizeDomain | src/options.js:131-137 | A blank input gives `""`. The result never holds `/` or a space, and has no upper-case letters. |
| OptionsPage.NormalizeIsLoweredSlice | src/options.js:131-137 | A non-empty result is the lower-cased form of a contiguous piece of the input. |
| OptionsPage.NormalizeStripsSchemeAndPath | src/options.js:132-134 | `scheme + host + path` gives the lower-cased host. The scheme is `http://` or `https://` in any letter case, and the path is empty or starts with `/`. |
| OptionsPage.NormalizeNoSchemePath | src/options.js:132-134 | A host typed without a scheme, with no `/` or `:` and no whitespace, followed by an empty path or one starting with `/`, gives the lower-cased host. |
| OptionsPage.NoSchemePrefix | src/options.js:134 | Text that starts with a host free of `:` and `/` does not start with `http://` or `https://`. |
| OptionsPage.NormalizeRejectsSpace | src/options.js:132-135 | An input without a scheme whose host holds a space gives `""`, whatever path follows. |
| OptionsPage.NormalizeOfTrim | src/options.js:131-132 | The input and its trimmed form normalize to the same domain, so whitespace at the ends never changes the result. |
| OptionsPage.NormalizeRejectsSpaceUrl | src/options.js:134-135 | A URL-shaped input, with `http://` or `https://` in any letter case, whose host holds a space gives `""`, whatever the path. |
| OptionsPage.NormalizeUrlExample | src/options.js:131-137 | `HTTP://Example.COM/path` gives `example.com`. |
| OptionsPage.NormalizeBlankExample | src/options.js:133 | A blank input gives `""`. |
| OptionsPage.NormalizeKeepsInnerTab | src/options.js:135 | Only U+0020 rejects an input: `a<TAB>b` is kept. |
| OptionsPage.NormalizePlain | src/options.js:131-137 | Text with no whitespace at either end, no upper-case letter, no `/` and no space normalizes to itself. |
| OptionsPage.NormalizeIdempotent | src/options.js:131-137 | Suppose the input's only whitespace is U+0020. Then the result holds no whitespace, and normalizing it again changes nothing. |
| OptionsPage.AddDomain | src/options.js:65-80 | Nothing is stored for input that normalizes to `""`. Otherwise the stored list has no duplicates, and it holds exactly the old entries plus the normalized input. The de-duplicated old list is its prefix. |
| OptionsPage.AddDomainIdempotent | src/options.js:65-80 | Adding the same input twice stores the same list as adding it once. |
| OptionsPage.AddPresentDomain | src/options.js:73-80 | Adding a domain that a duplicate-free list already holds leaves the list unchanged. |
| OptionsPage.SaveConfig | src/options.js:40-49 | A blank field is refused. Otherwise the stored string is the trimmed input: a non-empty piece of it with no whitespace at either end. |
| Background.EnableProxy | src/background.js:91-109 | `enableProxy` commits a PAC script exactly when the mirrored or freshly parsed configuration exists, and direct otherwise. The script is `buildPacScript` of the current list and that configuration: its directive is the configuration's, and its list holds exactly the lower-cased allowed domains, without duplicates. |
| Background.Desired | src/background.js:125-127 | `enabled ? enableProxy() : disableProxy()` is a PAC script exactly when enabled and a configuration exists. |
| Background.OnSyncChanged | src/background.js:181-192 | A sync change with a new connection string mirrors it together with its parse, and commits the desired setting exactly when enabled. `enabled` and the list are untouched, and a change without the key does nothing. |
| Background.OnLocalChanged | src/background.js:194-203 | A local change mirrors the new list and the new `enabled` when present and leaves the connection string alone. It commits a setting exactly when `enabled` changed, or the list changed while enabled, and the last commit is the desired setting. |
| Background.Step | src/background.js:11-204 | Only the sync read and sync changes move the connection string. Only the local read, the click and local changes move `enabled` and the list. The options page opens exactly on a click without a usable proxy, and only a click stores `enabled`, with the new value. |
| Background.InitialConsistent | src/background.js:1-9 | Before any read, the mirrored configuration is the parse of the mirrored string. |
| Background.StepPreservesConsistency | src/background.js:11-14 | Every handler keeps `proxyConfig` equal to `parseProxyUrl(config.proxyUrl)`. The sync change at lines 187-190 keeps it too. |
| Background.StepCommitsDesired | src/background.js:120-204 | Whenever a handler commits a setting, the last setting it commits is the desired setting of the state it leaves. |
| Background.QuietStepKeepsDesired | src/background.js:174-204 | A handler other than the start-up sync read that commits nothing leaves the desired setting unchanged. |
| Background.ActionClickTransitions | src/background.js:120-128 | With no connection string or no parsed proxy, the click only opens the options page. Otherwise it flips and stores `enabled`, and commits a PAC script exactly when it switches on. |
| Background.RecommitOnlyWhenEnabled | src/background.js:174-198 | The reload message, a new connection string and a new list never change `enabled`. They commit nothing while disabled. While enabled, the reload message commits `enableProxy()`. |
| Background.EnableWithoutUrl | src/background.js:91-96 | `enableProxy` without a connection string falls back to direct. |
| Background.ClickGuardUnderConsistency | src/background.js:121 | With a consistent mirror, the click guard amounts to "no parsed proxy". |
| Background.RunTracksDesired | src/background.js:120-204 | Suppose the committed setting is the desired one. It stays so through any run of events without a start-up sync read. |
| Background.StartupOrderLeavesProxyOff | src/background.js:11-23 | Suppose the local read (enabled) answers before the sync read (a valid connection string). Then the proxy stays direct although the state calls for the PAC script. |
| Background.StepRecommitting | src/background.js:11-14 | With a recommit after the start-up sync read, each handler leaves the same state as before. It either commits the desired setting or leaves it unchanged. |
| Background.RunRecommittingSameStates | src/background.js:11-14 | The recommitting read changes what is committed, never the states reached. |
| Background.RunRecommittingTracksDesired | src/background.js:11-204 | With the recommitting read, the committed setting stays the desired one through every run of events. |
| Background.StartupOrderRecommitting | src/background.js:11-23 | With the recommitting read, the same start-up order ends with the PAC script committed. |

## Left out

- The `chrome.*` APIs are not modelled as calls. Storage reads become event payloads and storage writes become effects. The proxy setting, opening the options page and messaging become effects or events. Badge text and colour are not modelled.
- The URL parser (`new URL`) is a parameter. Its own parsing and normalisation are not modelled.
- The PAC script is modelled by the values it embeds, not by its JavaScript text. The `JSON.stringify` escaping of the list and the `.trim()` of the template are not modelled.
- The context-menu setup (`ensureContextMenu`), the tab listeners and `getActiveTabDomain` are not modelled. The active-tab domain is an input of `DomainList.MenuToggle`.
- The menu click writes the toggled list through storage. The worker then sees the new list as a local-storage change event, which `Background.Step` models. The click's own assignment of the same list in its callback is not a separate event.
- The DOM of the options page is not modelled: rendering, the sorted display in `renderDomainList`, the README modal and `showStatus`.
- `saveConfig`'s storage write and its `reloadProxy` message are not modelled. They are the sync change and `Message("reloadProxy")` events of `Background`.
- Asynchronous interleavings are not modelled. Each handler runs to completion before the next one starts. This includes the read-then-write race between two list edits in flight at once.
- Text.Lower: `toLowerCase` is modelled on ASCII letters only. Other letters are left unchanged.
- Text.ParseInt: does not model a sign or leading whitespace, because the URL parser's port strings are digits only.
- A removed storage key is modelled as `""`, `[]` or `false`, values the worker handles like `undefined`. Non-string list items, which `String(item)` would convert, are not modelled.

## Findings

| source | as written | input that shows it | evidently intended | confidence | as-written member | corrected member |
|---|---|---|---|---|---|---|
| src/background.js:11-23 | The start-up read of the connection string sets `proxyConfig` but does not recommit. Only the local read commits a setting. | The local read answers first with `enabled: true`, before the sync read delivers a valid `proxyUrl`. The local read commits direct, and the proxy stays off. | After start-up, an enabled proxy with a valid connection string is active in either read order. | medium; not executed | Background.StartupOrderLeavesProxyOff | Background.StepRecommitting (with Background.RunRecommittingTracksDesired) |

=== FILE: background.dfy ===
/**
 The background worker: the in-memory mirror of the stored settings, the enabled flag, and the
 proxy setting it commits in response to events (storage loads at start-up, toolbar clicks,
 the options page's reload message and storage-change notifications). Every handler is a
 transition from a state and an event to a new state and the effects it requests.
 */
module Background {
  import opened Wrappers
  import opened Text
  import opened DomainList
  import opened ProxyUrl
  import opened Pac

  /** The foreign WHATWG URL parser: the parts of `new URL(value)`, or `None` when it throws. */
  type UrlParser = string -> Option<UrlParts>

  /** The worker's globals: `enabled`, `config.proxyUrl`, `proxyConfig` and `allowedDomains`. */
  datatype State = State(
    enabled: bool,
    proxyUrl: string,
    proxyConfig: Option<ProxyConfig>,
    allowedDomains: seq<string>)

  /** The values the globals hold before any storage read has answered. */
  const Initial: State := State(false, "", None, [])

  /** A value handed to `chrome.proxy.settings.set`. */
  datatype Setting = Direct | PacSetting(script: PacScript)

  /** What a handler asks of the browser. */
  datatype Effect =
    | SetProxy(setting: Setting)
    | StoreEnabled(on: bool)
    | OpenOptionsPage

  /** The storage area a change notification comes from. */
  datatype Area = SyncArea | LocalArea | OtherArea

  /**
   The keys of a change notification the worker reads, with their new values. A removed key is
   reported as `""`, `[]` or `false`, which the worker treats like its `undefined`.
   */
  datatype Changes = Changes(
    proxyUrl: Option<string>,
    allowedDomains: Option<seq<string>>,
    enabled: Option<bool>)

  datatype Event =
    | SyncLoaded(savedUrl: string)
    | LocalLoaded(savedDomains: seq<string>, savedEnabled: bool)
    | ActionClicked
    | Message(action: string)
    | StorageChanged(area: Area, changes: Changes)

  function Parse(parser: UrlParser, value: string): Option<ProxyConfig> {
    ParseProxyUrl(value, parser(value))
  }

  /** `proxyConfig || parseProxyUrl(config.proxyUrl)` */
  function EffectiveConfig(parser: UrlParser, s: State): Option<ProxyConfig> {
    if s.proxyConfig.Some? then s.proxyConfig else Parse(parser, s.proxyUrl)
  }

  /**
   `enableProxy()`: the PAC script for the current list and proxy, or the direct setting of
   `disableProxy()` when no proxy configuration parses.
   */
  function EnableProxy(parser: UrlParser, s: State): (r: Setting)
    ensures r.PacSetting? <==> EffectiveConfig(parser, s).Some?
    ensures r.PacSetting? ==> r.script.directive == Directive(EffectiveConfig(parser, s).value)
    ensures r.PacSetting? ==> forall a :: a in s.allowedDomains ==> Lower(a) in r.script.domains
    ensures r.PacSetting? ==> NoDuplicates(r.script.domains)
    ensures r.PacSetting? ==>
      forall d :: d in r.script.domains ==> exists a :: a in s.allowedDomains && Lower(a) == d
    ensures r.PacSetting? ==> r.script == BuildPacScript(s.allowedDomains, EffectiveConfig(parser, s).value)
  {
    match EffectiveConfig(parser, s)
    case None => Direct
    case Some(c) => PacSetting(BuildPacScript(s.allowedDomains, c))
  }

  /** The `if (enabled) enableProxy()` recommit of the reload and change handlers. */
  function Recommit(parser: UrlParser, s: State): seq<Effect> {
    if s.enabled then [SetProxy(EnableProxy(parser, s))] else []
  }

  /**
   The synchronised-storage change handler: a new connection string is mirrored together with
   its parse, and recommitted while enabled. Nothing else changes.
   */
  function OnSyncChanged(parser: UrlParser, s: State, c: Changes): (r: (State, seq<Effect>))
    ensures r.0.enabled == s.enabled && r.0.allowedDomains == s.allowedDomains
    ensures c.proxyUrl.None? ==> r == (s, [])
    ensures c.proxyUrl.Some? ==> r.0.proxyUrl == c.proxyUrl.value && Consistent(parser, r.0)
    ensures LastSetting(r.1).Some? <==> c.proxyUrl.Some? && s.enabled
    ensures LastSetting(r.1).Some? ==> LastSetting(r.1).value == Desired(parser, r.0)
  {
    if c.proxyUrl.None? then (s, [])
    else
      var s' := s.(proxyUrl := c.proxyUrl.value, proxyConfig := Parse(parser, c.proxyUrl.value));
      (s', Recommit(parser, s'))
  }

  /**
   The local-storage change handler: a new list is mirrored and recommitted while enabled; a
   new `enabled` is mirrored and its setting committed, after the list's. The connection string
   is left alone.
   */
  function OnLocalChanged(parser: UrlParser, s: State, c: Changes): (r: (State, seq<Effect>))
    ensures r.0.proxyUrl == s.proxyUrl && r.0.proxyConfig == s.proxyConfig
    ensures c.allowedDomains.None? ==> r.0.allowedDomains == s.allowedDomains
    ensures c.allowedDomains.Some? ==> r.0.allowedDomains == c.allowedDomains.value
    ensures c.enabled.None? ==> r.0.enabled == s.enabled
    ensures c.enabled.Some? ==> r.0.enabled == c.enabled.value
    ensures LastSetting(r.1).Some? <==> c.enabled.Some? || (c.allowedDomains.Some? && s.enabled)
    ensures LastSetting(r.1).Some? ==> LastSetting(r.1).value == Desired(parser, r.0)
  {
    var (s1, e1) :=
      if c.allowedDomains.None? then (s, [])
      else
        var t := s.(allowedDomains := c.allowedDomains.value);
        (t, Recommit(parser, t));
    if c.enabled.None? then (s1, e1)
    else
      var s2 := s1.(enabled := c.enabled.value);
      var last := SetProxy(Desired(parser, s2));
      assert LastSetting(e1 + [last]) == Some(last.setting);
      (s2, e1 + [last])
  }

  /**
   One event handler run to completion. Only the synchronised storage moves the connection
   string, only the local storage and the toolbar click move `enabled` and the list, only the
   click stores `enabled` or opens the options page.
   */
  function Step(parser: UrlParser, s: State, e: Event): (r: (State, seq<Effect>))
    ensures !e.SyncLoaded? && !(e.StorageChanged? && e.area == SyncArea) ==>
      r.0.proxyUrl == s.proxyUrl && r.0.proxyConfig == s.proxyConfig
    ensures !e.LocalLoaded? && !e.ActionClicked? && !(e.StorageChanged? && e.area == LocalArea) ==>
      r.0.enabled == s.enabled && r.0.allowedDomains == s.allowedDomains
    ensures OpenOptionsPage in r.1 <==> e.ActionClicked? && (s.proxyUrl == "" || s.proxyConfig.None?)
    ensures forall k :: 0 <= k < |r.1| && r.1[k].StoreEnabled? ==>
      e.ActionClicked? && r.1[k].on == r.0.enabled
  {
    match e
    case SyncLoaded(url) =>
      (s.(proxyUrl := url, proxyConfig := Parse(parser, url)), [])
    case LocalLoaded(domains, on) =>
      var s' := s.(allowedDomains := domains, enabled := on);
      (s', [SetProxy(Desired(parser, s'))])
    case ActionClicked =>
      if s.proxyUrl == "" || s.proxyConfig.None? then (s, [OpenOptionsPage])
      else
        var s' := s.(enabled := !s.enabled);
        (s', [StoreEnabled(s'.enabled), SetProxy(Desired(parser, s'))])
    case Message(action) =>
      if action == "reloadProxy" then (s, Recommit(parser, s)) else (s, [])
    case StorageChanged(area, c) =>
      match area
      case SyncArea => OnSyncChanged(parser, s, c)
      case LocalArea => OnLocalChanged(parser, s, c)
      case OtherArea => (s, [])
  }

  /** The last proxy setting among the effects, if any. */
  function LastSetting(effects: seq<Effect>): (r: Option<Setting>)
    ensures r.None? <==> forall k :: 0 <= k < |effects| ==> !effects[k].SetProxy?
    ensures r.Some? ==> SetProxy(r.value) in effects
    ensures r.Some? ==>
      exists i :: 0 <= i < |effects| && effects[i] == SetProxy(r.value)
                  && forall k :: i < k < |effects| ==> !effects[k].SetProxy?
  {
    if effects == [] then None
    else if effects[|effects| - 1].SetProxy? then Some(effects[|effects| - 1].setting)
    else LastSetting(effects[..|effects| - 1])
  }

  /**
   The setting the browser should hold for a state: the PAC script for the current proxy and
   list while enabled with a proxy that parses, direct otherwise.
   */
  function Desired(parser: UrlParser, s: State): (r: Setting)
    ensures r.PacSetting? <==> s.enabled && EffectiveConfig(parser, s).Some?
  {
    if s.enabled then EnableProxy(parser, s) else Direct
  }

  /** The mirrored proxy configuration is the parse of the mirrored connection string. */
  predicate Consistent(parser: UrlParser, s: State) {
    s.proxyConfig == Parse(parser, s.proxyUrl)
  }

  // ---------------------------------------------------------------------------
  // Properties of single steps
  // ---------------------------------------------------------------------------

  lemma InitialConsistent(parser: UrlParser)
    ensures Consistent(parser, Initial)
  {
  }

  /** Every handler keeps the mirrored configuration equal to the parse of the mirrored string. */
  lemma StepPreservesConsistency(parser: UrlParser, s: State, e: Event)
    requires Consistent(parser, s)
    ensures Consistent(parser, Step(parser, s, e).0)
  {
  }

  /**
   Whenever a handler commits a setting, the last one it commits is the desired setting of the
   state it leaves behind.
   */
  lemma StepCommitsDesired(parser: UrlParser, s: State, e: Event)
    ensures LastSetting(Step(parser, s, e).1).Some? ==>
      LastSetting(Step(parser, s, e).1).value == Desired(parser, Step(parser, s, e).0)
  {
  }

  /**
   A handler that commits nothing leaves the desired setting as it was, except the start-up
   read of the synchronised storage.
   */
  lemma QuietStepKeepsDesired(parser: UrlParser, s: State, e: Event)
    requires !e.SyncLoaded?
    ensures LastSetting(Step(parser, s, e).1).None? ==>
      Desired(parser, Step(parser, s, e).0) == Desired(parser, s)
  {
  }

  /**
   The toolbar click: with no connection string or no parsed proxy the options page opens and
   nothing else changes; otherwise `enabled` flips, is stored, and the matching setting
   is committed — the PAC script when switching on, direct when switching off.
   */
  lemma ActionClickTransitions(parser: UrlParser, s: State)
    ensures s.proxyUrl == "" || s.proxyConfig.None? ==>
      Step(parser, s, ActionClicked) == (s, [OpenOptionsPage])
    ensures s.proxyUrl != "" && s.proxyConfig.Some? ==>
      var (s', effects) := Step(parser, s, ActionClicked);
      && s'.enabled == !s.enabled
      && s' == s.(enabled := !s.enabled)
      && StoreEnabled(s'.enabled) in effects
      && LastSetting(effects).Some?
      && (LastSetting(effects).value.PacSetting? <==> s'.enabled)
  {
    if s.proxyUrl != "" && s.proxyConfig.Some? {
      var (s', effects) := Step(parser, s, ActionClicked);
      assert effects[1] == SetProxy(Desired(parser, s'));
    }
  }

  /**
   A reload message, a new connection string or a new domain list never changes `enabled`, and
   commits a setting only while enabled.
   */
  lemma RecommitOnlyWhenEnabled(parser: UrlParser, s: State, e: Event)
    requires
      || e.Message?
      || (e.StorageChanged? && e.area == SyncArea)
      || (e.StorageChanged? && e.area == LocalArea && e.changes.enabled.None?)
    ensures Step(parser, s, e).0.enabled == s.enabled
    ensures !s.enabled ==> Step(parser, s, e).1 == []
    ensures s.enabled && e == Message("reloadProxy") ==>
      Step(parser, s, e).1 == [SetProxy(EnableProxy(parser, s))]
  {
  }

  /** `enableProxy()` without a connection string falls back to the direct setting. */
  lemma EnableWithoutUrl(parser: UrlParser, s: State)
    requires s.proxyUrl == "" && s.proxyConfig.None?
    ensures EnableProxy(parser, s) == Direct
  {
  }

  /**
   With a consistent mirror the click guard is just "no parsed proxy": a parsed proxy always
   comes from a non-empty string.
   */
  lemma ClickGuardUnderConsistency(parser: UrlParser, s: State)
    requires Consistent(parser, s)
    ensures (s.proxyUrl == "" || s.proxyConfig.None?) <==> s.proxyConfig.None?
  {
  }

  // ---------------------------------------------------------------------------
  // Runs of events
  // ---------------------------------------------------------------------------

  /** The state after a run of events and the setting the browser then holds. */
  function Run(parser: UrlParser, s: State, live: Setting, events: seq<Event>): (State, Setting)
    decreases |events|
  {
    if events == [] then (s, live)
    else
      var (s', effects) := Step(parser, s, events[0]);
      var live' := match LastSetting(effects)
        case Some(setting) => setting
        case None => live;
      Run(parser, s', live', events[1..])
  }

  /**
   Once the committed setting is the desired one, it stays the desired one through any run of
   events that contains no start-up read of the synchronised storage.
   */
  lemma {:induction false} RunTracksDesired(
    parser: UrlParser, s: State, live: Setting, events: seq<Event>)
    requires live == Desired(parser, s)
    requires forall k :: 0 <= k < |events| ==> !events[k].SyncLoaded?
    ensures Run(parser, s, live, events).1 == Desired(parser, Run(parser, s, live, events).0)
    decreases |events|
  {
    if events != [] {
      var (s', effects) := Step(parser, s, events[0]);
      StepCommitsDesired(parser, s, events[0]);
      QuietStepKeepsDesired(parser, s, events[0]);
      var live' := match LastSetting(effects)
        case Some(setting) => setting
        case None => live;
      RunTracksDesired(parser, s', live', events[1..]);
    }
  }

  /**
   The start-up reads race: when the local read (enabled, list) answers before the
   synchronised one (connection string), the worker commits the direct setting and the later
   connection string does not trigger a recommit, so an enabled proxy with a valid connection
   string stays off until the next event that recommits.
   */
  lemma StartupOrderLeavesProxyOff(parser: UrlParser, domains: seq<string>, url: string)
    requires Parse(parser, url).Some?
    ensures
      var (s, live) := Run(parser, Initial, Direct, [LocalLoaded(domains, true), SyncLoaded(url)]);
      && s.enabled
      && live == Direct
      && Desired(parser, s).PacSetting?
  {
    var events := [LocalLoaded(domains, true), SyncLoaded(url)];
    var s1 := State(true, "", None, domains);
    assert Step(parser, Initial, events[0]) == (s1, [SetProxy(Direct)]);
    var s2 := State(true, url, Parse(parser, url), domains);
    assert Step(parser, s1, events[1]) == (s2, []);
    assert events[1..][1..] == [];
    assert Run(parser, s1, Direct, events[1..]) == (s2, Direct);
  }

  // ---------------------------------------------------------------------------
  // The start-up read of the synchronised storage, recommitting
  // ---------------------------------------------------------------------------

  /**
   The handlers with the start-up read of the connection string followed by the same
   `if (enabled) enableProxy()` recommit as its change notification; all other events as in `Step`.
   */
  function StepRecommitting(parser: UrlParser, s: State, e: Event): (r: (State, seq<Effect>))
    ensures r.0 == Step(parser, s, e).0
    ensures LastSetting(r.1).Some? ==> LastSetting(r.1).value == Desired(parser, r.0)
    ensures LastSetting(r.1).None? ==> Desired(parser, r.0) == Desired(parser, s)
  {
    match e
    case SyncLoaded(url) =>
      var s' := s.(proxyUrl := url, proxyConfig := Parse(parser, url));
      (s', Recommit(parser, s'))
    case _ =>
      StepCommitsDesired(parser, s, e);
      QuietStepKeepsDesired(parser, s, e);
      Step(parser, s, e)
  }

  function RunRecommitting(parser: UrlParser, s: State, live: Setting, events: seq<Event>): (State, Setting)
    decreases |events|
  {
    if events == [] then (s, live)
    else
      var (s', effects) := StepRecommitting(parser, s, events[0]);
      var live' := match LastSetting(effects)
        case Some(setting) => setting
        case None => live;
      RunRecommitting(parser, s', live', events[1..])
  }

  /**
   With the recommitting start-up read, the committed setting stays the desired one through
   every run of events, whatever order the two storage reads answer in.
   */
  lemma {:induction false} RunRecommittingTracksDesired(
    parser: UrlParser, s: State, live: Setting, events: seq<Event>)
    requires live == Desired(parser, s)
    ensures RunRecommitting(parser, s, live, events).1
         == Desired(parser, RunRecommitting(parser, s, live, events).0)
    decreases |events|
  {
    if events != [] {
      var (s', effects) := StepRecommitting(parser, s, events[0]);
      var live' := match LastSetting(effects)
        case Some(setting) => setting
        case None => live;
      RunRecommittingTracksDesired(parser, s', live', events[1..]);
    }
  }

  /** The recommitting read changes what is committed, never the state the handlers reach. */
  lemma {:induction false} RunRecommittingSameStates(
    parser: UrlParser, s: State, live: Setting, live': Setting, events: seq<Event>)
    ensures RunRecommitting(parser, s, live, events).0 == Run(parser, s, live', events).0
    decreases |events|
  {
    if events != [] {
      var (s1, effects) := StepRecommitting(parser, s, events[0]);
      var (s2, effects') := Step(parser, s, events[0]);
      var l1 := match LastSetting(effects)
        case Some(setting) => setting
        case None => live;
      var l2 := match LastSetting(effects')
        case Some(setting) => setting
        case None => live';
      RunRecommittingSameStates(parser, s1, l1, l2, events[1..]);
    }
  }

  /** With the recommitting read the same start-up order ends with the proxy on. */
  lemma StartupOrderRecommitting(parser: UrlParser, domains: seq<string>, url: string)
    requires Parse(parser, url).Some?
    ensures
      var (s, live) := RunRecommitting(parser, Initial, Direct,
                                       [LocalLoaded(domains, true), SyncLoaded(url)]);
      && s.enabled
      && live == Desired(parser, s)
      && live.PacSetting?
  {
    var events := [LocalLoaded(domains, true), SyncLoaded(url)];
    RunRecommittingTracksDesired(parser, Initial, Direct, events);
    RunRecommittingSameStates(parser, Initial, Direct, Direct, events);
    StartupOrderLeavesProxyOff(parser, domains, url);
  }
}

=== FILE: domain_list.dfy ===
/**
 The allow-list of domains: set-style insertion (`new Set(list).add(x)`), de-duplication in
 first-occurrence order (`Array.from(new Set(list))`), removal of every copy (`filter`), the
 context-menu toggle and the context-menu title that reflects membership.
 */
module DomainList {
  import opened Wrappers

  predicate NoDuplicates(s: seq<string>) {
    forall i, j :: 0 <= i < j < |s| ==> s[i] != s[j]
  }

  /** Index of the first occurrence of `x` in `s`. */
  function FirstIndex(s: seq<string>, x: string): (i: nat)
    requires x in s
    ensures i < |s| && s[i] == x && x !in s[..i]
  {
    if s[0] == x then 0 else 1 + FirstIndex(s[1..], x)
  }

  /** The first occurrence is the only position holding `x` with no earlier copy. */
  lemma FirstIndexUnique(s: seq<string>, x: string, i: nat)
    requires i < |s| && s[i] == x && x !in s[..i]
    ensures FirstIndex(s, x) == i
  {
  }

  /**
   Adding to a JavaScript `Set`: an element already present leaves the sequence as it is,
   a new one goes at the end.
   */
  function Insert(s: seq<string>, x: string): (r: seq<string>)
    ensures x in r
    ensures forall y :: y in r <==> y in s || y == x
    ensures |s| <= |r| <= |s| + 1 && r[..|s|] == s
    ensures x in s ==> r == s
    ensures NoDuplicates(s) ==> NoDuplicates(r)
  {
    if x in s then s else s + [x]
  }

  /**
   `Array.from(new Set(s))`: the distinct elements of `s`, each kept at its first occurrence.
   */
  function Dedup(s: seq<string>): (r: seq<string>)
    ensures NoDuplicates(r)
    ensures forall x :: x in r <==> x in s
    ensures |r| <= |s|
  {
    if s == [] then [] else Insert(Dedup(s[..|s| - 1]), s[|s| - 1])
  }

  /** A sequence without duplicates is its own de-duplication. */
  lemma {:induction false} DedupOfNoDuplicates(s: seq<string>)
    requires NoDuplicates(s)
    ensures Dedup(s) == s
  {
    if s != [] {
      var p := s[..|s| - 1];
      DedupOfNoDuplicates(p);
      assert s[|s| - 1] !in p;
      assert p + [s[|s| - 1]] == s;
    }
  }

  /** De-duplicating twice is de-duplicating once. */
  lemma DedupIdempotent(s: seq<string>)
    ensures Dedup(Dedup(s)) == Dedup(s)
  {
    DedupOfNoDuplicates(Dedup(s));
  }

  /** Appending an element does not move the first occurrence of an earlier one. */
  lemma FirstIndexAppend(p: seq<string>, x: string, y: string)
    requires y in p
    ensures FirstIndex(p + [x], y) == FirstIndex(p, y)
  {
    var f := FirstIndex(p, y);
    assert (p + [x])[..f] == p[..f];
    FirstIndexUnique(p + [x], y, f);
  }

  /** A new element appended at the end first occurs there. */
  lemma FirstIndexAppendNew(p: seq<string>, x: string)
    requires x !in p
    ensures FirstIndex(p + [x], x) == |p|
  {
    assert (p + [x])[..|p|] == p;
    FirstIndexUnique(p + [x], x, |p|);
  }

  /** The de-duplicated sequence lists the distinct elements in the order they first occur. */
  lemma {:induction false} DedupFirstOccurrenceOrder(s: seq<string>)
    ensures forall i, j :: 0 <= i < j < |Dedup(s)| ==>
      FirstIndex(s, Dedup(s)[i]) < FirstIndex(s, Dedup(s)[j])
  {
    if s != [] {
      var p := s[..|s| - 1];
      var x := s[|s| - 1];
      var d := Dedup(p);
      DedupFirstOccurrenceOrder(p);
      assert s == p + [x];
      var r := Dedup(s);
      assert r == Insert(d, x);
      forall i, j | 0 <= i < j < |r|
        ensures FirstIndex(s, r[i]) < FirstIndex(s, r[j])
      {
        assert r[i] == d[i] && d[i] in p;
        FirstIndexAppend(p, x, d[i]);
        if j < |d| {
          assert r[j] == d[j] && d[j] in p;
          FirstIndexAppend(p, x, d[j]);
        } else {
          assert r[j] == x && x !in d;
          FirstIndexAppendNew(p, x);
        }
      }
    }
  }

  /** `s.filter(item => item !== x)`: every copy of `x` removed, the rest kept in order. */
  function Remove(s: seq<string>, x: string): (r: seq<string>)
    ensures x !in r
    ensures forall y :: y != x ==> multiset(r)[y] == multiset(s)[y]
    ensures |r| <= |s|
  {
    if s == [] then []
    else
      assert s == [s[0]] + s[1..];
      (if s[0] == x then [] else [s[0]]) + Remove(s[1..], x)
  }

  /** Removal works piecewise, so the kept elements stay in their original order. */
  lemma {:induction false} RemoveConcat(a: seq<string>, b: seq<string>, x: string)
    ensures Remove(a + b, x) == Remove(a, x) + Remove(b, x)
  {
    if a != [] {
      RemoveConcat(a[1..], b, x);
      assert (a + b)[0] == a[0];
      assert (a + b)[1..] == a[1..] + b;
      var h := if a[0] == x then [] else [a[0]];
      assert Remove(a + b, x) == h + Remove(a[1..] + b, x);
      assert Remove(a, x) == h + Remove(a[1..], x);
    } else {
      assert a + b == b;
    }
  }

  /** Removing an absent element changes nothing. */
  lemma {:induction false} RemoveAbsent(s: seq<string>, x: string)
    requires x !in s
    ensures Remove(s, x) == s
  {
    if s != [] {
      RemoveAbsent(s[1..], x);
    }
  }

  /** Removing twice is removing once. */
  lemma RemoveIdempotent(s: seq<string>, x: string)
    ensures Remove(Remove(s, x), x) == Remove(s, x)
  {
    RemoveAbsent(Remove(s, x), x);
  }

  /** Removal keeps a duplicate-free list duplicate-free. */
  lemma RemoveKeepsNoDuplicates(s: seq<string>, x: string)
    requires NoDuplicates(s)
    ensures NoDuplicates(Remove(s, x))
  {
    var r := Remove(s, x);
    forall i, j | 0 <= i < j < |r|
      ensures r[i] != r[j]
    {
      if r[i] == r[j] {
        TwoCopies(r, i, j);
        NoDuplicatesCount(s, r[i]);
        assert false;
      }
    }
  }

  lemma TwoCopies(s: seq<string>, i: nat, j: nat)
    requires i < j < |s| && s[i] == s[j]
    ensures multiset(s)[s[i]] >= 2
  {
    assert s == s[..i] + [s[i]] + s[i + 1..j] + [s[j]] + s[j + 1..];
  }

  lemma {:induction false} NoDuplicatesCount(s: seq<string>, y: string)
    requires NoDuplicates(s)
    ensures multiset(s)[y] <= 1
  {
    if s != [] {
      assert s == [s[0]] + s[1..];
      NoDuplicatesCount(s[1..], y);
      if s[0] == y {
        assert y !in s[1..];
      }
    }
  }

  /**
   The context-menu toggle on a stored list: a present domain has every copy removed, an
   absent one is appended.
   */
  function Toggle(s: seq<string>, d: string): (r: seq<string>)
    ensures d in r <==> d !in s
    ensures forall y :: y != d ==> (y in r <==> y in s)
    ensures d !in s ==> |r| == |s| + 1 && r[..|s|] == s
    ensures d in s ==> r == Remove(s, d)
  {
    if d in s then
      var r := Remove(s, d);
      assert forall y :: y != d ==> (y in r <==> multiset(r)[y] > 0) && (y in s <==> multiset(s)[y] > 0);
      r
    else
      s + [d]
  }

  /** Toggling an absent domain twice gives back the original list. */
  lemma ToggleTwiceAbsent(s: seq<string>, d: string)
    requires d !in s
    ensures Toggle(Toggle(s, d), d) == s
  {
    RemoveConcat(s, [d], d);
    RemoveAbsent(s, d);
  }

  /** Toggling keeps a duplicate-free list duplicate-free. */
  lemma ToggleKeepsNoDuplicates(s: seq<string>, d: string)
    requires NoDuplicates(s)
    ensures NoDuplicates(Toggle(s, d))
  {
    if d in s {
      RemoveKeepsNoDuplicates(s, d);
    }
  }

  /** The title the context-menu item shows. */
  datatype MenuTitle = OfferAdd | OfferRemove

  /** The menu offers removal exactly when the domain is non-empty and listed. */
  function MenuTitleFor(domain: string, s: seq<string>): (t: MenuTitle)
    ensures t == OfferRemove <==> domain != "" && domain in s
  {
    if domain != "" && domain in s then OfferRemove else OfferAdd
  }

  /**
   The context-menu click: nothing is written for an empty active-tab domain, otherwise the
   toggled list is stored and the menu title flips.
   */
  function MenuToggle(stored: seq<string>, domain: string): (r: Option<seq<string>>)
    ensures r.None? <==> domain == ""
    ensures r.Some? ==> MenuTitleFor(domain, r.value) != MenuTitleFor(domain, stored)
    ensures r.Some? ==> forall y :: y != domain ==> (y in r.value <==> y in stored)
    ensures r.Some? ==> r.value == Toggle(stored, domain)
  {
    if domain == "" then None else Some(Toggle(stored, domain))
  }

  /**
   After a toggle the menu offers the opposite action for the same domain: adding once it was
   removed, removing once it was added.
   */
  lemma MenuTitleAfterToggle(d: string, s: seq<string>)
    requires d != ""
    ensures MenuTitleFor(d, Toggle(s, d)) == if d in s then OfferAdd else OfferRemove
  {
  }
}

=== FILE: options_page.dfy ===
/**
 The options page: cleaning a typed domain (`normalizeDomain`), adding it to the stored list
 (`addDomain`) and saving the proxy connection string (`saveConfig`). Removing a listed domain
 is `DomainList.Remove`. Storage reads and writes become the list passed in and the value
 returned.
 */
module OptionsPage {
  import opened Wrappers
  import opened Text
  import opened DomainList

  /** Length of a leading `http://` or `https://` (the regular expression `^https?:\/\/`). */
  function SchemePrefixLength(s: string): (n: nat)
    ensures n == 0 || n == 7 || n == 8
    ensures n <= |s|
    ensures n > 0 ==> s[n - 1] == '/'
    ensures n == 7 <==> |s| >= 7 && s[..7] == "http://"
    ensures n == 8 <==> |s| >= 8 && s[..8] == "https://"
  {
    if |s| >= 7 && s[..7] == "http://" then
      assert s[6] == "http://"[6];
      assert |s| >= 8 ==> s[..8][4] == s[4] == ':' != "https://"[4];
      7
    else if |s| >= 8 && s[..8] == "https://" then
      assert s[7] == "https://"[7];
      8
    else 0
  }

  /** `s.replace(/^https?:\/\//, "")` */
  function StripScheme(s: string): (r: string)
    ensures '/' !in s ==> r == s
    ensures exists p :: 0 <= p <= |s| && r == s[p..]
    ensures |s| >= 7 && s[..7] == "http://" ==> r == s[7..]
    ensures |s| >= 8 && s[..8] == "https://" ==> r == s[8..]
    ensures !(|s| >= 7 && s[..7] == "http://") && !(|s| >= 8 && s[..8] == "https://") ==> r == s
  {
    var p := SchemePrefixLength(s);
    assert p > 0 ==> s[p - 1] in s;
    s[p..]
  }

  /** Index of the first `/`, or the length when there is none. */
  function SlashIndex(s: string): (n: nat)
    ensures n <= |s|
    ensures '/' !in s[..n]
    ensures n < |s| ==> s[n] == '/'
  {
    match FirstIndexOf(s, '/')
    case None =>
      assert s[..|s|] == s;
      |s|
    case Some(i) => i
  }

  /** `s.split("/")[0]`: the text before the first `/`. */
  function BeforeSlash(s: string): (r: string)
    ensures '/' !in r
    ensures '/' !in s ==> r == s
    ensures exists n :: 0 <= n <= |s| && r == s[..n]
    ensures |r| <= |s| && r == s[..|r|]
    ensures |r| < |s| ==> s[|r|] == '/'
  {
    var n := SlashIndex(s);
    assert '/' !in s ==> n == |s| && s[..n] == s;
    s[..n]
  }

  /**
   `normalizeDomain(value)`: the trimmed, lower-cased input with one leading `http://` or
   `https://` removed and everything from the first `/` on dropped; `""` when the input is
   blank, when that leaves nothing, or when it holds a space character.
   */
  function NormalizeDomain(value: string): (r: string)
    ensures AllWhitespace(value) ==> r == ""
    ensures '/' !in r && ' ' !in r
    ensures NoUpper(r)
  {
    var raw := Lower(Trim(value));
    LowerHasNoUpper(Trim(value));
    if raw == "" then ""
    else
      var cleaned := BeforeSlash(StripScheme(raw));
      if cleaned == "" || ' ' in cleaned then "" else cleaned
  }

  /** A non-empty result is what the scheme and path removal leaves of the lowered input. */
  lemma NormalizeCleaned(value: string)
    requires NormalizeDomain(value) != ""
    ensures NormalizeDomain(value) == BeforeSlash(StripScheme(Lower(Trim(value))))
  {
  }

  /** What the scheme and path removal leaves is a slice of the text. */
  lemma CleanedSlice(raw: string) returns (p: nat, n: nat)
    ensures p + n <= |raw|
    ensures BeforeSlash(StripScheme(raw)) == raw[p..p + n]
  {
    p := SchemePrefixLength(raw);
    n := SlashIndex(raw[p..]);
    assert StripScheme(raw) == raw[p..];
    assert BeforeSlash(raw[p..]) == raw[p..][..n];
  }

  /** A non-empty result is the host part of the lower-cased, trimmed input. */
  lemma NormalizeShape(value: string) returns (p: nat, n: nat)
    requires NormalizeDomain(value) != ""
    ensures p + n <= |Trim(value)|
    ensures NormalizeDomain(value) == Lower(Trim(value))[p..p + n]
  {
    NormalizeCleaned(value);
    p, n := CleanedSlice(Lower(Trim(value)));
  }

  /** A piece of the lower-cased, trimmed text is the lower case of a piece of the text. */
  lemma LoweredTrimSlice(value: string, p: nat, n: nat) returns (i: nat, j: nat)
    requires p + n <= |Trim(value)|
    ensures i <= j <= |value| && Lower(Trim(value))[p..p + n] == Lower(value[i..j])
  {
    var t := Trim(value);
    var a, b := TrimFrom(value), TrimTo(value);
    LowerSlice(t, p, p + n);
    assert t == value[a..b];
    SliceOfSlice(value, a, b, p, p + n);
    i, j := a + p, a + p + n;
  }

  /** A non-empty result is a lower-cased piece of the input. */
  lemma NormalizeIsLoweredSlice(value: string) returns (i: nat, j: nat)
    requires NormalizeDomain(value) != ""
    ensures i <= j <= |value| && NormalizeDomain(value) == Lower(value[i..j])
  {
    var p, n := NormalizeShape(value);
    i, j := LoweredTrimSlice(value, p, n);
  }

  lemma SlashIndexAt(s: string, i: nat)
    requires i < |s| && s[i] == '/' && '/' !in s[..i]
    ensures SlashIndex(s) == i
  {
  }

  lemma StripSchemeOf(scheme: string, rest: string)
    requires scheme == "http://" || scheme == "https://"
    ensures StripScheme(scheme + rest) == rest
  {
    var s := scheme + rest;
    assert s[..|scheme|] == scheme;
    if scheme == "https://" {
      assert s[4] != "http://"[4];
    }
    assert s[|scheme|..] == rest;
  }

  lemma BeforeSlashOf(host: string, path: string)
    requires '/' !in host && (path == [] || path[0] == '/')
    ensures BeforeSlash(host + path) == host
  {
    var s := host + path;
    if path == [] {
      assert s == host;
    } else {
      assert s[..|host|] == host;
      SlashIndexAt(s, |host|);
    }
  }

  /** Input that trimming leaves alone normalizes through the scheme and path removal alone. */
  lemma NormalizeTrimmed(v: string, cleaned: string)
    requires v != "" && Trim(v) == v
    requires BeforeSlash(StripScheme(Lower(v))) == cleaned
    requires cleaned != "" && ' ' !in cleaned
    ensures NormalizeDomain(v) == cleaned
  {
  }

  /** The ends of a URL-shaped input are not whitespace. */
  lemma UrlShapeEnds(scheme: string, host: string, path: string)
    requires Lower(scheme) == "http://" || Lower(scheme) == "https://"
    requires host != "" && NoWhitespace(host)
    requires path == [] || !IsWhitespace(path[|path| - 1])
    ensures Trim(scheme + host + path) == scheme + host + path
  {
    var v := scheme + host + path;
    assert !IsWhitespace(v[0]) by {
      assert v[0] == scheme[0];
      assert Lower(scheme)[0] == 'h';
    }
    assert !IsWhitespace(v[|v| - 1]) by {
      if path == [] {
        assert v[|v| - 1] == host[|host| - 1];
      } else {
        assert v[|v| - 1] == path[|path| - 1];
      }
    }
    TrimUnchanged(v);
  }

  /** The lowered host keeps the host's freedom from `/` and whitespace. */
  lemma LoweredHost(host: string)
    requires host != "" && NoWhitespace(host) && '/' !in host
    ensures Lower(host) != "" && '/' !in Lower(host) && ' ' !in Lower(host)
  {
    var h := Lower(host);
    forall k | 0 <= k < |h|
      ensures h[k] != '/' && h[k] != ' '
    {
      assert host[k] != '/' && !IsWhitespace(host[k]);
    }
  }

  /**
   A URL-shaped input `scheme + host + path`, with the scheme `http://` or `https://` in any
   letter case and the path empty or starting with `/`, normalizes to the lower-cased host.
   */
  lemma NormalizeStripsSchemeAndPath(scheme: string, host: string, path: string)
    requires Lower(scheme) == "http://" || Lower(scheme) == "https://"
    requires host != "" && NoWhitespace(host) && '/' !in host
    requires path == [] || (path[0] == '/' && !IsWhitespace(path[|path| - 1]))
    ensures NormalizeDomain(scheme + host + path) == Lower(host)
  {
    var v := scheme + host + path;
    UrlShapeEnds(scheme, host, path);
    var rest := Lower(host) + Lower(path);
    assert Lower(v) == Lower(scheme) + rest by {
      LowerConcat(scheme + host, path);
      LowerConcat(scheme, host);
    }
    StripSchemeOf(Lower(scheme), rest);
    LoweredHost(host);
    BeforeSlashOf(Lower(host), Lower(path));
    NormalizeTrimmed(v, Lower(host));
  }

  /**
   Text that starts with a host holding neither `:` nor `/` cannot start with `http://` or
   `https://`.
   */
  lemma NoSchemePrefix(h: string, p: string)
    requires h != "" && ':' !in h && '/' !in h
    requires p == [] || p[0] == '/'
    ensures !(|h + p| >= 7 && (h + p)[..7] == "http://")
    ensures !(|h + p| >= 8 && (h + p)[..8] == "https://")
  {
    var s := h + p;
    if |s| >= 7 {
      if |h| > 4 {
        assert s[..7][4] == h[4] != "http://"[4];
      } else {
        assert s[..7][|h|] == p[0] != "http://"[|h|];
      }
    }
    if |s| >= 8 {
      if |h| > 5 {
        assert s[..8][5] == h[5] != "https://"[5];
      } else {
        assert s[..8][|h|] == p[0] != "https://"[|h|];
      }
    }
  }

  /**
   A host typed without a scheme, optionally followed by a path, normalizes to the lower-cased
   host.
   */
  lemma NormalizeNoSchemePath(host: string, path: string)
    requires host != "" && NoWhitespace(host) && '/' !in host && ':' !in host
    requires path == [] || (path[0] == '/' && !IsWhitespace(path[|path| - 1]))
    ensures NormalizeDomain(host + path) == Lower(host)
  {
    var v := host + path;
    assert !IsWhitespace(v[0]) by {
      assert v[0] == host[0];
    }
    assert !IsWhitespace(v[|v| - 1]) by {
      if path == [] {
        assert v[|v| - 1] == host[|host| - 1];
      } else {
        assert v[|v| - 1] == path[|path| - 1];
      }
    }
    TrimUnchanged(v);
    var h, q := Lower(host), Lower(path);
    LowerConcat(host, path);
    LoweredHost(host);
    assert ':' !in h by {
      forall k | 0 <= k < |h|
        ensures h[k] != ':'
      {
        assert host[k] != ':';
      }
    }
    assert q == [] || q[0] == '/';
    NoSchemePrefix(h, q);
    assert StripScheme(h + q) == h + q;
    BeforeSlashOf(h, q);
    NormalizeTrimmed(v, h);
  }

  /** A host holding a space, followed by nothing or a path, has no scheme to remove. */
  lemma SpacedHostNoScheme(h: string, p: string)
    requires '/' !in h && ' ' in h
    requires p == [] || p[0] == '/'
    ensures StripScheme(h + p) == h + p
  {
    var s := h + p;
    var k :| 0 <= k < |h| && h[k] == ' ';
    if |s| >= 7 {
      if k < 7 {
        assert s[..7][k] == ' ' != "http://"[k];
      } else {
        assert s[..7][5] == h[5] != "http://"[5];
      }
    }
    if |s| >= 8 {
      if k < 8 {
        assert s[..8][k] == ' ' != "https://"[k];
      } else {
        assert s[..8][6] == h[6] != "https://"[6];
      }
    }
  }

  /**
   An input without a scheme whose host holds a space character is rejected, whatever path
   follows the host.
   */
  lemma NormalizeRejectsSpace(host: string, path: string)
    requires '/' !in host && ' ' in host
    requires path == [] || path[0] == '/'
    requires !IsWhitespace(host[0]) && !IsWhitespace((host + path)[|host + path| - 1])
    ensures NormalizeDomain(host + path) == ""
  {
    var v := host + path;
    assert v[0] == host[0];
    TrimUnchanged(v);
    var h, q := Lower(host), Lower(path);
    LowerConcat(host, path);
    LoweredSpacedHost(host);
    assert q == [] || q[0] == '/';
    SpacedHostNoScheme(h, q);
    BeforeSlashOf(h, q);
    NormalizeTrimmedSpace(v, h);
  }

  /** Whitespace at the ends of the input never changes the result. */
  lemma NormalizeOfTrim(v: string)
    ensures NormalizeDomain(Trim(v)) == NormalizeDomain(v)
  {
    TrimIdempotent(v);
  }

  /** Trimmed input whose scheme and path removal leaves text with a space is rejected. */
  lemma NormalizeTrimmedSpace(v: string, cleaned: string)
    requires v != "" && Trim(v) == v
    requires BeforeSlash(StripScheme(Lower(v))) == cleaned && ' ' in cleaned
    ensures NormalizeDomain(v) == ""
  {
  }

  /** Lower-casing keeps a host's freedom from `/` and its space characters. */
  lemma LoweredSpacedHost(host: string)
    requires '/' !in host && ' ' in host
    ensures '/' !in Lower(host) && ' ' in Lower(host)
  {
    var h := Lower(host);
    forall k | 0 <= k < |h|
      ensures h[k] != '/'
    {
      assert host[k] != '/';
    }
    var k :| 0 <= k < |host| && host[k] == ' ';
    assert h[k] == ' ';
  }

  /** The lowered form of a URL-shaped input, split at the scheme. */
  lemma LoweredUrl(scheme: string, host: string, path: string)
    ensures Lower(scheme + host + path) == Lower(scheme) + (Lower(host) + Lower(path))
  {
    LowerConcat(scheme + host, path);
    LowerConcat(scheme, host);
  }

  /**
   A URL-shaped input whose host holds a space character is rejected: the space test applies
   to the host left after the scheme and the path are removed.
   */
  lemma NormalizeRejectsSpaceUrl(scheme: string, host: string, path: string)
    requires Lower(scheme) == "http://" || Lower(scheme) == "https://"
    requires '/' !in host && ' ' in host
    requires path == [] || path[0] == '/'
    requires !IsWhitespace((scheme + host + path)[|scheme + host + path| - 1])
    ensures NormalizeDomain(scheme + host + path) == ""
  {
    var v := scheme + host + path;
    assert !IsWhitespace(v[0]) by {
      assert v[0] == scheme[0];
      assert Lower(scheme)[0] == 'h';
    }
    TrimUnchanged(v);
    var h, q := Lower(host), Lower(path);
    LoweredUrl(scheme, host, path);
    StripSchemeOf(Lower(scheme), h + q);
    LoweredSpacedHost(host);
    assert q == [] || q[0] == '/';
    BeforeSlashOf(h, q);
    NormalizeTrimmedSpace(v, h);
  }

  /** A full URL typed into the field: scheme, letter case and path are all dropped. */
  lemma NormalizeUrlExample()
    ensures NormalizeDomain("HTTP://" + "Example.COM" + "/path") == "example.com"
  {
    assert Lower("HTTP://") == "http://";
    assert NoWhitespace("Example.COM") && '/' !in "Example.COM";
    assert Lower("Example.COM") == "example.com";
    NormalizeStripsSchemeAndPath("HTTP://", "Example.COM", "/path");
  }

  /** A blank input is rejected. */
  lemma NormalizeBlankExample()
    ensures NormalizeDomain("  ") == ""
  {
    assert AllWhitespace("  ");
  }

  /**
   The input is only rejected for a space character (U+0020): other whitespace inside the domain,
   such as a tab, is kept.
   */
  lemma NormalizeKeepsInnerTab()
    ensures NormalizeDomain("a\tb") == "a\tb"
  {
    var v := "a\tb";
    assert !IsWhitespace(v[0]) && !IsWhitespace(v[2]);
    assert NoUpper(v) && '/' !in v && ' ' !in v;
    NormalizePlain(v);
  }

  /**
   Text without whitespace at either end, upper-case letters, `/` or spaces normalizes to
   itself.
   */
  lemma NormalizePlain(v: string)
    requires v != "" && !IsWhitespace(v[0]) && !IsWhitespace(v[|v| - 1])
    requires NoUpper(v) && '/' !in v && ' ' !in v
    ensures NormalizeDomain(v) == v
  {
    TrimUnchanged(v);
    LowerUnchanged(v);
  }

  /** Inputs whose only whitespace character is U+0020. */
  predicate OnlySpaces(value: string) {
    forall k :: 0 <= k < |value| ==> IsWhitespace(value[k]) ==> value[k] == ' '
  }

  /**
   For inputs whose only whitespace is the space character, the result contains no whitespace
   and normalizing it again changes nothing.
   */
  lemma NormalizeIdempotent(value: string)
    requires OnlySpaces(value)
    ensures NoWhitespace(NormalizeDomain(value))
    ensures NormalizeDomain(NormalizeDomain(value)) == NormalizeDomain(value)
  {
    var r := NormalizeDomain(value);
    if r != "" {
      var i, j := NormalizeIsLoweredSlice(value);
      assert NoWhitespace(r) by {
        forall k | 0 <= k < |r|
          ensures !IsWhitespace(r[k])
        {
          assert r[k] == LowerChar(value[i + k]);
          assert r[k] != ' ';
        }
      }
      NormalizePlain(r);
    }
  }

  /**
   `addDomain`: nothing is stored for input that normalizes to `""`; otherwise the stored list
   becomes `Array.from(new Set(stored).add(domain))`.
   */
  function AddDomain(stored: seq<string>, input: string): (r: Option<seq<string>>)
    ensures r.None? <==> NormalizeDomain(input) == ""
    ensures r.Some? ==>
      && NoDuplicates(r.value)
      && NormalizeDomain(input) in r.value
      && (forall y :: y in r.value <==> y in stored || y == NormalizeDomain(input))
      && |Dedup(stored)| <= |r.value|
      && r.value[..|Dedup(stored)|] == Dedup(stored)
  {
    var n := NormalizeDomain(input);
    if n == "" then None else Some(Insert(Dedup(stored), n))
  }

  /** Adding the same input twice stores the same list as adding it once. */
  lemma AddDomainIdempotent(stored: seq<string>, input: string)
    requires AddDomain(stored, input).Some?
    ensures AddDomain(AddDomain(stored, input).value, input) == AddDomain(stored, input)
  {
    var once := AddDomain(stored, input).value;
    DedupOfNoDuplicates(once);
  }

  /** Adding to a list that already holds the domain only drops duplicates of the stored list. */
  lemma AddPresentDomain(stored: seq<string>, input: string)
    requires NoDuplicates(stored) && NormalizeDomain(input) != "" && NormalizeDomain(input) in stored
    ensures AddDomain(stored, input) == Some(stored)
  {
    DedupOfNoDuplicates(stored);
  }

  /** Result of pressing Save on the connection-string field. */
  datatype SaveOutcome = Refused | Saved(proxyUrl: string)

  /**
   `saveConfig`: a blank field is refused and nothing is stored; otherwise the trimmed value is
   stored as `proxyUrl` (and a `reloadProxy` message follows).
   */
  function SaveConfig(input: string): (r: SaveOutcome)
    ensures r.Refused? <==> AllWhitespace(input)
    ensures r.Saved? ==>
      && r.proxyUrl != ""
      && !IsWhitespace(r.proxyUrl[0]) && !IsWhitespace(r.proxyUrl[|r.proxyUrl| - 1])
      && exists i, j :: 0 <= i <= j <= |input| && r.proxyUrl == input[i..j]
    ensures r.Saved? ==> r.proxyUrl == Trim(input)
  {
    var url := Trim(input);
    if url == "" then Refused else Saved(url)
  }
}

=== FILE: pac.dfy ===
/**
 The proxy auto-config (PAC) script the extension generates (`buildPacScript`) and the
 `FindProxyForURL` function embedded in it. The script's text is modelled as the two values it
 embeds: the domain list literal and the proxy directive string.
 */
module Pac {
  import opened Wrappers
  import opened Text
  import opened DomainList
  import opened ProxyUrl

  /** What `FindProxyForURL` returns for a host outside the list. */
  const DirectResult: string := "DIRECT"

  /** The PAC proxy-type keyword of each scheme (the `proxyMap` table). */
  function Keyword(s: Scheme): (r: string)
    ensures r != "" && ' ' !in r && ':' !in r
  {
    match s
    case Socks5 => "SOCKS5"
    case Socks5h => "SOCKS5"
    case Http => "PROXY"
    case Https => "HTTPS"
  }

  /**
   The directive string `${keyword} ${host}:${port}` returned for listed hosts. It reads back
   as the scheme's keyword, the host and the port, whatever characters the host holds.
   */
  function Directive(c: ProxyConfig): (r: string)
    // phrased over texts equal to `r` so the read-back is only unfolded where a proof parses
    ensures forall d {:trigger ParseDirective(d)} :: d == r ==>
      ParseDirective(d) == Some(DirectiveParts(Keyword(c.scheme), c.host, c.port))
  {
    ParseDirectiveOf(Keyword(c.scheme), c.host, c.port);
    Keyword(c.scheme) + " " + c.host + ":" + NatToString(c.port)
  }

  /** Only the two SOCKS schemes share a keyword. */
  lemma KeywordsDistinct(a: Scheme, b: Scheme)
    ensures Keyword(a) == Keyword(b) <==> a == b || ((a.Socks5? || a.Socks5h?) && (b.Socks5? || b.Socks5h?))
  {
    assert "PROXY"[0] != "HTTPS"[0] && "PROXY"[0] != "SOCKS5"[0] && "HTTPS"[0] != "SOCKS5"[0];
  }

  /** A generated PAC script: the embedded domain list and the directive. */
  datatype PacScript = PacScript(domains: seq<string>, directive: string)

  /** `allowedDomains.map(item => String(item).toLowerCase())` */
  function LowerAll(s: seq<string>): (r: seq<string>)
    ensures |r| == |s|
    ensures forall k :: 0 <= k < |s| ==> r[k] == Lower(s[k])
    ensures forall k :: 0 <= k < |r| ==> NoUpper(r[k])
  {
    seq(|s|, k requires 0 <= k < |s| => Lower(s[k]))
  }

  /** Lower-casing the list a second time changes nothing. */
  lemma LowerAllIdempotent(s: seq<string>)
    ensures LowerAll(LowerAll(s)) == LowerAll(s)
  {
    var r := LowerAll(s);
    forall k | 0 <= k < |r|
      ensures Lower(r[k]) == r[k]
    {
      LowerUnchanged(r[k]);
    }
  }

  /**
   `buildPacScript(parsed)`: the lower-cased allowed domains without duplicates, and the
   directive for the parsed proxy.
   */
  function BuildPacScript(allowed: seq<string>, c: ProxyConfig): (r: PacScript)
    ensures NoDuplicates(r.domains)
    ensures forall d :: d in r.domains ==> exists a :: a in allowed && Lower(a) == d
    ensures forall a :: a in allowed ==> Lower(a) in r.domains
    ensures forall k :: 0 <= k < |r.domains| ==> NoUpper(r.domains[k])
    ensures r.directive == Directive(c)
  {
    var lowered := LowerAll(allowed);
    assert forall d :: d in lowered ==> exists a :: a in allowed && Lower(a) == d by {
      forall d | d in lowered
        ensures exists a :: a in allowed && Lower(a) == d
      {
        var k :| 0 <= k < |lowered| && lowered[k] == d;
        assert allowed[k] in allowed;
      }
    }
    assert forall a :: a in allowed ==> Lower(a) in lowered by {
      forall a | a in allowed
        ensures Lower(a) in lowered
      {
        var k :| 0 <= k < |allowed| && allowed[k] == a;
        assert lowered[k] == Lower(a);
      }
    }
    assert forall d :: d in lowered ==> NoUpper(d) by {
      forall d | d in lowered
        ensures NoUpper(d)
      {
        var k :| 0 <= k < |lowered| && lowered[k] == d;
        LowerHasNoUpper(allowed[k]);
      }
    }
    PacScript(Dedup(lowered), Directive(c))
  }

  predicate EndsWith(s: string, suffix: string) {
    |suffix| <= |s| && s[|s| - |suffix|..] == suffix
  }

  /** The test inside `FindProxyForURL`: the host is the domain or one of its subdomains. */
  predicate Matches(host: string, d: string) {
    host == d || EndsWith(host, "." + d)
  }

  /** Some entry of the list matches the host. */
  predicate AnyMatch(domains: seq<string>, host: string) {
    exists d :: d in domains && Matches(host, d)
  }

  /**
   The generated `FindProxyForURL(url, host)`: the host is lower-cased and the directive is
   returned as soon as an entry matches; a host no entry matches connects directly.
   */
  method FindProxyForUrl(pac: PacScript, host: string) returns (r: string)
    ensures AnyMatch(pac.domains, Lower(host)) ==> r == pac.directive
    ensures !AnyMatch(pac.domains, Lower(host)) ==> r == DirectResult
  {
    var h := Lower(host);
    var i := 0;
    while i < |pac.domains|
      invariant 0 <= i <= |pac.domains|
      invariant forall k :: 0 <= k < i ==> !Matches(h, pac.domains[k])
    {
      var d := pac.domains[i];
      if h == d || EndsWith(h, "." + d) {
        assert d in pac.domains && Matches(h, d);
        return pac.directive;
      }
      i := i + 1;
    }
    return DirectResult;
  }

  /**
   A host matches exactly when it is the domain itself or some label sequence followed by a dot
   and the domain: a host that merely ends with the domain's text does not.
   */
  lemma MatchesIffDotBoundary(host: string, d: string)
    ensures Matches(host, d) <==> host == d || exists p :: host == p + "." + d
  {
    if EndsWith(host, "." + d) {
      var p := host[..|host| - |d| - 1];
      assert host == p + "." + d;
    }
    if exists p :: host == p + "." + d {
      var p :| host == p + "." + d;
      assert host[|host| - |d| - 1..] == "." + d;
    }
  }

  /** Every subdomain of a matching host matches too. */
  lemma MatchesSubdomain(host: string, d: string, sub: string)
    requires Matches(host, d)
    ensures Matches(sub + "." + host, d)
  {
    var h := sub + "." + host;
    if host == d {
      assert h[|h| - |d| - 1..] == "." + d;
    } else {
      assert h[|h| - |d| - 1..] == host[|host| - |d| - 1..];
    }
  }

  lemma AnyMatchSingle(d: string, host: string)
    ensures AnyMatch([d], host) <==> Matches(host, d)
  {
    if Matches(host, d) {
      assert d in [d];
    }
  }

  /** The list `["example.com"]` covers the domain and its subdomains, nothing else. */
  lemma MatchExamples()
    ensures AnyMatch(["example.com"], "sub.example.com")
    ensures AnyMatch(["example.com"], "example.com")
    ensures !AnyMatch(["example.com"], "notexample.com")
  {
    var d := "example.com";
    AnyMatchSingle(d, "sub.example.com");
    AnyMatchSingle(d, "example.com");
    AnyMatchSingle(d, "notexample.com");
    assert Matches("sub.example.com", d) by {
      assert "sub.example.com"[3..] == "." + d;
    }
    assert !Matches("notexample.com", d) by {
      assert "notexample.com"[2] != ("." + d)[0];
    }
  }

  /**
   Routing through a built script ignores case on both sides: a host is proxied exactly when
   its lower-case form matches the lower-case form of some allowed domain.
   */
  lemma BuiltScriptRouting(allowed: seq<string>, c: ProxyConfig, host: string)
    ensures AnyMatch(BuildPacScript(allowed, c).domains, Lower(host))
        <==> exists a :: a in allowed && Matches(Lower(host), Lower(a))
  {
    var pac := BuildPacScript(allowed, c);
    var h := Lower(host);
    if AnyMatch(pac.domains, h) {
      var d :| d in pac.domains && Matches(h, d);
      var a :| a in allowed && Lower(a) == d;
      assert a in allowed && Matches(h, Lower(a));
    }
    if exists a :: a in allowed && Matches(h, Lower(a)) {
      var a :| a in allowed && Matches(h, Lower(a));
      assert Lower(a) in pac.domains;
    }
  }

  // ---------------------------------------------------------------------------
  // Reading a directive back
  // ---------------------------------------------------------------------------

  /** The three fields a PAC consumer reads from a `TYPE host:port` directive. */
  datatype DirectiveParts = DirectiveParts(keyword: string, host: string, port: nat)

  function LastIndexOf(s: string, c: char): (r: Option<nat>)
    ensures r.None? <==> c !in s
    ensures r.Some? ==> r.value < |s| && s[r.value] == c && c !in s[r.value + 1..]
  {
    if s == [] then None
    else if s[|s| - 1] == c then Some(|s| - 1)
    else
      match LastIndexOf(s[..|s| - 1], c)
      case None => None
      case Some(i) =>
        assert s[i + 1..] == s[..|s| - 1][i + 1..] + [s[|s| - 1]];
        Some(i)
  }

  /**
   Splits `host:port` at its last colon. The port must be written the way `${port}` writes a
   number.
   */
  function ParseHostPort(rest: string): Option<(string, nat)> {
    match LastIndexOf(rest, ':')
    case None => None
    case Some(j) =>
      var port := rest[j + 1..];
      if CanonicalDigits(port) then Some((rest[..j], DigitsValue(port))) else None
  }

  /** Splits a directive at its first space, then the rest at its last colon. */
  function ParseDirective(directive: string): Option<DirectiveParts> {
    match FirstIndexOf(directive, ' ')
    case None => None
    case Some(i) =>
      match ParseHostPort(directive[i + 1..])
      case None => None
      case Some((host, port)) => Some(DirectiveParts(directive[..i], host, port))
  }

  lemma LastIndexOfAt(s: string, c: char, j: nat)
    requires j < |s| && s[j] == c && c !in s[j + 1..]
    ensures LastIndexOf(s, c) == Some(j)
  {
  }

  /** The first space of `kw + " " + tail` is the one after a keyword without spaces. */
  lemma SplitAtKeyword(kw: string, tail: string)
    requires ' ' !in kw
    ensures FirstIndexOf(kw + " " + tail, ' ') == Some(|kw|)
    ensures (kw + " " + tail)[..|kw|] == kw && (kw + " " + tail)[|kw| + 1..] == tail
  {
    var d := kw + " " + tail;
    assert d[..|kw|] == kw;
    FirstIndexOfAt(d, ' ', |kw|);
  }

  /** The last colon of `host + ":" + port` is the one before a port without colons. */
  lemma SplitAtPort(host: string, port: string)
    requires ':' !in port
    ensures LastIndexOf(host + ":" + port, ':') == Some(|host|)
    ensures (host + ":" + port)[..|host|] == host && (host + ":" + port)[|host| + 1..] == port
  {
    var rest := host + ":" + port;
    assert rest[..|host|] == host;
    assert rest[|host| + 1..] == port;
    LastIndexOfAt(rest, ':', |host|);
  }

  lemma HostPortOf(host: string, n: nat)
    ensures ParseHostPort(host + ":" + NatToString(n)) == Some((host, n))
  {
    var port := NatToString(n);
    assert ':' !in port by {
      assert AllDigits(port);
    }
    SplitAtPort(host, port);
    CanonicalNatToString(n);
    DigitsValueOfNatToString(n);
  }

  lemma HostPortExact(rest: string, host: string, n: nat)
    requires ParseHostPort(rest) == Some((host, n))
    ensures rest == host + ":" + NatToString(n)
  {
    var j := LastIndexOf(rest, ':').value;
    var port := rest[j + 1..];
    assert CanonicalDigits(port) && host == rest[..j] && n == DigitsValue(port);
    NatToStringOfCanonical(port);
    assert rest == rest[..j] + [rest[j]] + rest[j + 1..];
  }

  /**
   A directive built from a keyword without spaces reads back as that keyword, the host and the
   port, whatever characters the host holds.
   */
  lemma ParseDirectiveOf(kw: string, host: string, n: nat)
    requires ' ' !in kw
    ensures ParseDirective(kw + " " + host + ":" + NatToString(n)) == Some(DirectiveParts(kw, host, n))
  {
    var rest := host + ":" + NatToString(n);
    assert kw + " " + host + ":" + NatToString(n) == kw + " " + rest;
    SplitAtKeyword(kw, rest);
    HostPortOf(host, n);
  }

  /** A successful reading splits the directive at its first space. */
  lemma ParseDirectiveSplit(d: string, kw: string, host: string, n: nat) returns (i: nat)
    requires ParseDirective(d) == Some(DirectiveParts(kw, host, n))
    ensures i < |d| && d[i] == ' ' && kw == d[..i]
    ensures ParseHostPort(d[i + 1..]) == Some((host, n))
  {
    var first := FirstIndexOf(d, ' ');
    assert first.Some?;
    i := first.value;
    var hostPort := ParseHostPort(d[i + 1..]);
    assert hostPort.Some?;
    assert hostPort.value == (host, n);
  }

  lemma JoinAtSpace(d: string, i: nat, host: string, port: string)
    requires i < |d| && d[i] == ' ' && d[i + 1..] == host + ":" + port
    ensures d == d[..i] + " " + host + ":" + port
  {
    assert d == d[..i] + [d[i]] + d[i + 1..];
  }

  /**
   The reading fixes the text: the only directive that reads back as a keyword, a host and a
   port is the one written from them.
   */
  lemma ParseDirectiveExact(d: string, kw: string, host: string, n: nat)
    requires ParseDirective(d) == Some(DirectiveParts(kw, host, n))
    ensures d == kw + " " + host + ":" + NatToString(n)
  {
    var i := ParseDirectiveSplit(d, kw, host, n);
    HostPortExact(d[i + 1..], host, n);
    JoinAtSpace(d, i, host, NatToString(n));
  }

  /** No text other than the directive itself reads back as the directive's parts. */
  lemma DirectiveExact(c: ProxyConfig, d: string)
    requires ParseDirective(d) == ParseDirective(Directive(c))
    ensures d == Directive(c)
  {
    ParseDirectiveExact(d, Keyword(c.scheme), c.host, c.port);
  }

  /** A directive never reads as the direct-connection answer. */
  lemma DirectiveIsNotDirect(c: ProxyConfig)
    ensures Directive(c) != DirectResult
  {
    assert ' ' !in DirectResult;
  }

  /** The script generated for an HTTP proxy and one listed domain. */
  lemma BuildExample()
    ensures BuildPacScript(["a.com"], ProxyConfig(Http, "10.0.0.1", 8080))
         == PacScript(["a.com"], "PROXY 10.0.0.1:8080")
  {
    HttpDirectiveExample();
    assert Dedup(LowerAll(["a.com"])) == ["a.com"] by {
      assert Lower("a.com") == "a.com";
      assert LowerAll(["a.com"]) == ["a.com"];
      DedupOfNoDuplicates(["a.com"]);
    }
  }

  lemma HttpDirectiveExample()
    ensures Directive(ProxyConfig(Http, "10.0.0.1", 8080)) == "PROXY 10.0.0.1:8080"
  {
    PortText8080();
    assert Keyword(Http) == "PROXY";
  }

  lemma PortText8080()
    ensures NatToString(8080) == "8080"
  {
    assert NatToString(80) == "80";
    assert NatToString(808) == NatToString(80) + "8";
    assert NatToString(8080) == NatToString(808) + "0";
  }
}

=== FILE: proxy_url.dfy ===
/**
 `parseProxyUrl`: the checks the extension applies to the output of the WHATWG URL parser
 before it accepts a proxy connection string. The URL parser itself is foreign; its output
 (protocol, hostname and port string, or a thrown error) is an input here.
 */
module ProxyUrl {
  import opened Wrappers
  import opened Text

  /** The proxy schemes the extension accepts. */
  datatype Scheme = Socks5 | Socks5h | Http | Https

  function SchemeName(s: Scheme): string {
    match s
    case Socks5 => "socks5"
    case Socks5h => "socks5h"
    case Http => "http"
    case Https => "https"
  }

  /** The allowed scheme names, in the order the source lists them. */
  const AllowedSchemeNames: seq<string> := ["socks5", "socks5h", "http", "https"]

  /** Membership test of a scheme name in the allowed list, returning the scheme it names. */
  function SchemeFromName(name: string): (r: Option<Scheme>)
    ensures r.Some? <==> name in AllowedSchemeNames
    ensures r.Some? ==> SchemeName(r.value) == name
  {
    if name == "socks5" then Some(Socks5)
    else if name == "socks5h" then Some(Socks5h)
    else if name == "http" then Some(Http)
    else if name == "https" then Some(Https)
    else None
  }

  lemma SchemeNameRoundTrip(s: Scheme)
    ensures SchemeFromName(SchemeName(s)) == Some(s)
    ensures ':' !in SchemeName(s)
  {
  }

  /** A parsed proxy: the object `{scheme, host, port}` that `parseProxyUrl` returns. */
  datatype ProxyConfig = ProxyConfig(scheme: Scheme, host: string, port: nat)

  /** The parts of a `URL` object the extension reads. */
  datatype UrlParts = UrlParts(protocol: string, hostname: string, port: string)

  /** `s.replace(":", "")` with a string pattern: only the first colon is removed. */
  function RemoveFirstColon(s: string): (r: string)
    ensures ':' !in s ==> r == s
    ensures ':' in s ==> |r| == |s| - 1
    ensures FirstIndexOf(s, ':').Some? ==>
      r == s[..FirstIndexOf(s, ':').value] + s[FirstIndexOf(s, ':').value + 1..]
  {
    if s == [] then []
    else if s[0] == ':' then
      assert s[..0] + s[1..] == s[1..];
      s[1..]
    else
      var t := RemoveFirstColon(s[1..]);
      RemoveFirstColonCons(s, t);
      [s[0]] + t
  }

  /** Removing the first colon after a leading character that is not a colon. */
  lemma RemoveFirstColonCons(s: string, t: string)
    requires s != [] && s[0] != ':'
    requires ':' !in s[1..] ==> t == s[1..]
    requires FirstIndexOf(s[1..], ':').Some? ==>
      t == s[1..][..FirstIndexOf(s[1..], ':').value] + s[1..][FirstIndexOf(s[1..], ':').value + 1..]
    ensures ':' !in s ==> [s[0]] + t == s
    ensures FirstIndexOf(s, ':').Some? ==>
      [s[0]] + t == s[..FirstIndexOf(s, ':').value] + s[FirstIndexOf(s, ':').value + 1..]
  {
    match FirstIndexOf(s[1..], ':')
    case Some(i) =>
      RemoveFirstColonConsAt(s, t, i);
    case None =>
      assert s == [s[0]] + s[1..];
  }

  lemma RemoveFirstColonConsAt(s: string, t: string, i: nat)
    requires s != [] && s[0] != ':' && i < |s| - 1
    requires t == s[1..][..i] + s[1..][i + 1..]
    ensures [s[0]] + t == s[..i + 1] + s[i + 2..]
  {
    assert s[..i + 1] == [s[0]] + s[1..][..i];
    assert s[i + 2..] == s[1..][i + 1..];
  }

  lemma RemoveFirstColonOfName(name: string)
    requires ':' !in name
    ensures RemoveFirstColon(name + ":") == name
  {
    var s := name + ":";
    assert s[..|name|] == name;
    FirstIndexOfAt(s, ':', |name|);
    assert s[|name| + 1..] == [];
  }

  /**
   The port test `parsed.port ? parseInt(parsed.port, 10) : NaN` followed by `!port`:
   the port number when the string is present and reads as a non-zero number.
   */
  function PortNumber(port: string): (r: Option<nat>)
    ensures r.Some? <==> port != "" && ParseInt(port).Some? && ParseInt(port).value != 0
    ensures r.Some? ==> r.value >= 1 && ParseInt(port) == r
  {
    if port == "" then None
    else match ParseInt(port)
      case None => None
      case Some(p) => if p == 0 then None else Some(p)
  }

  /** A port rendered in decimal is read back by the port test, except zero, which it rejects. */
  lemma PortNumberOfNatToString(n: nat)
    ensures PortNumber(NatToString(n)) == if n == 0 then None else Some(n)
  {
    ParseIntOfNatToString(n);
  }

  /**
   `parseProxyUrl(value)`, where `url` is what `new URL(value)` produced (`None` when it threw).
   */
  function ParseProxyUrl(value: string, url: Option<UrlParts>): (r: Option<ProxyConfig>)
    // the null cases, each on its own
    ensures value == "" ==> r.None?
    ensures url.None? ==> r.None?
    ensures url.Some? && RemoveFirstColon(url.value.protocol) !in AllowedSchemeNames ==> r.None?
    ensures url.Some? && url.value.hostname == "" ==> r.None?
    ensures url.Some? && PortNumber(url.value.port).None? ==> r.None?
    // and when none of them applies, the parsed object
    ensures r.Some? <==>
      value != "" && url.Some? && RemoveFirstColon(url.value.protocol) in AllowedSchemeNames
      && url.value.hostname != "" && PortNumber(url.value.port).Some?
    ensures r.Some? ==>
      && SchemeName(r.value.scheme) == RemoveFirstColon(url.value.protocol)
      && r.value.host == url.value.hostname
      && Some(r.value.port) == ParseInt(url.value.port)
      && r.value.port >= 1
  {
    if value == "" then None
    else match url
      case None => None
      case Some(parts) =>
        match SchemeFromName(RemoveFirstColon(parts.protocol))
        case None => None
        case Some(scheme) =>
          if parts.hostname == "" then None
          else match PortNumber(parts.port)
            case None => None
            case Some(port) => Some(ProxyConfig(scheme, parts.hostname, port))
  }

  /** The URL parts a URL parser reports for `scheme://host:port`. */
  function UrlOf(c: ProxyConfig): UrlParts {
    UrlParts(SchemeName(c.scheme) + ":", c.host, NatToString(c.port))
  }

  /** Every proxy with a host and a non-zero port is read back exactly from its own URL parts. */
  lemma ParseProxyUrlRoundTrip(value: string, c: ProxyConfig)
    requires value != "" && c.host != "" && c.port >= 1
    ensures ParseProxyUrl(value, Some(UrlOf(c))) == Some(c)
  {
    SchemeNameRoundTrip(c.scheme);
    RemoveFirstColonOfName(SchemeName(c.scheme));
    ParseIntOfNatToString(c.port);
  }

  /**
   The URL parser only reports port strings of decimal digits no larger than 65535; for those
   an accepted port lies in the range of TCP ports.
   */
  lemma AcceptedPortInRange(value: string, url: UrlParts)
    requires AllDigits(url.port) && (url.port != "" ==> DigitsValue(url.port) <= 65535)
    requires ParseProxyUrl(value, Some(url)).Some?
    ensures 1 <= ParseProxyUrl(value, Some(url)).value.port <= 65535
  {
  }

  /** `socks5://1.2.3.4:1080` parses to the SOCKS5 proxy on port 1080. */
  lemma ParseSocksExample()
    ensures ParseProxyUrl("socks5://1.2.3.4:1080", Some(UrlParts("socks5:", "1.2.3.4", "1080")))
         == Some(ProxyConfig(Socks5, "1.2.3.4", 1080))
  {
    var c := ProxyConfig(Socks5, "1.2.3.4", 1080);
    assert NatToString(1080) == "1080";
    assert UrlOf(c) == UrlParts("socks5:", "1.2.3.4", "1080");
    ParseProxyUrlRoundTrip("socks5://1.2.3.4:1080", c);
  }

  /**
   A URL that relies on its scheme's default port (`http://proxy` or `http://proxy:80`) has an
   empty port string and is rejected, as is an explicit port 0 and a string the URL parser
   refuses.
   */
  lemma RejectedExamples()
    ensures ParseProxyUrl("http://proxy", Some(UrlParts("http:", "proxy", ""))).None?
    ensures ParseProxyUrl("http://proxy:0", Some(UrlParts("http:", "proxy", "0"))).None?
    ensures ParseProxyUrl("not a url", None).None?
  {
    assert PortNumber("0").None? by {
      assert ParseInt("0") == Some(0);
    }
  }

  /** A scheme outside the four supported ones is rejected, whatever the rest of the URL. */
  lemma UnsupportedSchemeRejected(value: string, hostname: string, port: string)
    ensures ParseProxyUrl(value, Some(UrlParts("ftp:", hostname, port))).None?
  {
    RemoveFirstColonOfName("ftp");
    assert "ftp" + ":" == "ftp:";
  }
}

=== FILE: text.dfy ===
/**
 The JavaScript string primitives the extension relies on: `trim`, `toLowerCase`,
 `parseInt(_, 10)` and the decimal rendering of a number inside a template literal.
 */
module Text {
  import opened Wrappers

  /** The code points ECMAScript's `String.prototype.trim` removes: WhiteSpace and LineTerminator. */
  predicate IsWhitespace(c: char) {
    var n := c as int;
    n == 0x09 || n == 0x0A || n == 0x0B || n == 0x0C || n == 0x0D || n == 0x20
    || n == 0xA0 || n == 0x1680 || (0x2000 <= n <= 0x200A) || n == 0x2028 || n == 0x2029
    || n == 0x202F || n == 0x205F || n == 0x3000 || n == 0xFEFF
  }

  predicate IsUpper(c: char) {
    'A' <= c <= 'Z'
  }

  predicate AllWhitespace(s: string) {
    forall k :: 0 <= k < |s| ==> IsWhitespace(s[k])
  }

  predicate NoUpper(s: string) {
    forall k :: 0 <= k < |s| ==> !IsUpper(s[k])
  }

  predicate NoWhitespace(s: string) {
    forall k :: 0 <= k < |s| ==> !IsWhitespace(s[k])
  }

  // ---------------------------------------------------------------------------
  // toLowerCase
  // ---------------------------------------------------------------------------

  /** The lower-case ASCII alphabet; its `k`-th letter is the lower case of `'A' + k`. */
  const LowerAlphabet: string := "abcdefghijklmnopqrstuvwxyz"

  /** Lower-casing of one character (ASCII letters only). */
  function LowerChar(c: char): (r: char)
    ensures !IsUpper(r)
    ensures IsWhitespace(r) <==> IsWhitespace(c)
    ensures !IsUpper(c) ==> r == c
  {
    if IsUpper(c) then (c as int + 32) as char else c
  }

  /** A capital `'A' + k` lower-cases to the `k`-th letter of the small alphabet. */
  lemma LowerCapital(c: char)
    requires IsUpper(c)
    ensures LowerChar(c) == LowerAlphabet[c as int - 'A' as int]
  {
  }

  function Lower(s: string): (r: string)
    ensures |r| == |s|
    ensures forall k {:trigger r[k]} :: 0 <= k < |s| ==> r[k] == LowerChar(s[k])
  {
    seq(|s|, k requires 0 <= k < |s| => LowerChar(s[k]))
  }

  /** Lower-casing commutes with slicing: a slice of the lowered text is the lowered slice. */
  lemma LowerSlice(s: string, i: nat, j: nat)
    requires i <= j <= |s|
    ensures Lower(s)[i..j] == Lower(s[i..j])
  {
  }

  /** A slice of a slice is a slice of the original. */
  lemma SliceOfSlice(s: string, a: nat, b: nat, i: nat, j: nat)
    requires a <= b <= |s| && i <= j <= b - a
    ensures s[a..b][i..j] == s[a + i..a + j]
  {
    var x, y := s[a..b][i..j], s[a + i..a + j];
    forall k | 0 <= k < |x|
      ensures x[k] == y[k]
    {
      assert x[k] == s[a..b][i + k] == s[a + i + k];
    }
  }

  lemma LowerConcat(a: string, b: string)
    ensures Lower(a + b) == Lower(a) + Lower(b)
  {
  }

  /** A lowered string has no upper-case letter. */
  lemma LowerHasNoUpper(s: string)
    ensures NoUpper(Lower(s))
  {
  }

  /**
   Lower-casing ignores letter case: two strings that differ only where one has a capital and
   the other the matching small letter lower-case to the same string.
   */
  lemma LowerIgnoresCase(a: string, b: string)
    requires |a| == |b|
    requires forall k :: 0 <= k < |a| ==>
      a[k] == b[k] || (IsUpper(a[k]) && b[k] == LowerAlphabet[a[k] as int - 'A' as int])
    ensures Lower(a) == Lower(b)
  {
    forall k | 0 <= k < |a|
      ensures Lower(a)[k] == Lower(b)[k]
    {
      if a[k] != b[k] {
        LowerCapital(a[k]);
        assert !IsUpper(LowerAlphabet[a[k] as int - 'A' as int]);
      }
    }
  }

  /** Lower-casing twice is lower-casing once. */
  lemma LowerIdempotent(s: string)
    ensures Lower(Lower(s)) == Lower(s)
  {
    LowerHasNoUpper(s);
    LowerUnchanged(Lower(s));
  }

  /** Lowering a string without upper-case letters changes nothing. */
  lemma LowerUnchanged(s: string)
    requires NoUpper(s)
    ensures Lower(s) == s
  {
  }

  // ---------------------------------------------------------------------------
  // trim
  // ---------------------------------------------------------------------------

  /** Number of whitespace characters at the start of `s`. */
  function LeadingBlanks(s: string): (n: nat)
    ensures n <= |s|
    ensures forall k :: 0 <= k < n ==> IsWhitespace(s[k])
    ensures n < |s| ==> !IsWhitespace(s[n])
  {
    if |s| > 0 && IsWhitespace(s[0]) then 1 + LeadingBlanks(s[1..]) else 0
  }

  /** Number of whitespace characters at the end of `s`. */
  function TrailingBlanks(s: string): (n: nat)
    ensures n <= |s|
    ensures forall k :: |s| - n <= k < |s| ==> IsWhitespace(s[k])
    ensures n < |s| ==> !IsWhitespace(s[|s| - 1 - n])
  {
    if |s| > 0 && IsWhitespace(s[|s| - 1]) then 1 + TrailingBlanks(s[..|s| - 1]) else 0
  }

  /** Index where the trimmed text starts. */
  function TrimFrom(s: string): (i: nat)
    ensures i <= |s|
  {
    LeadingBlanks(s)
  }

  /** Index where the trimmed text ends. */
  function TrimTo(s: string): (j: nat)
    ensures TrimFrom(s) <= j <= |s|
    ensures forall k :: j <= k < |s| ==> IsWhitespace(s[k])
    ensures TrimFrom(s) < j ==> !IsWhitespace(s[j - 1])
  {
    var i := TrimFrom(s);
    var t := s[i..];
    var n := TrailingBlanks(t);
    assert forall k :: |s| - n <= k < |s| ==> s[k] == t[k - i];
    assert i < |s| - n ==> s[|s| - n - 1] == t[|t| - 1 - n];
    |s| - n
  }

  /**
   `String.prototype.trim`: the slice of `s` left after removing whitespace at both ends.
   */
  function Trim(s: string): (r: string)
    ensures r == s[TrimFrom(s)..TrimTo(s)]
    ensures forall k :: 0 <= k < TrimFrom(s) ==> IsWhitespace(s[k])
    ensures forall k :: TrimTo(s) <= k < |s| ==> IsWhitespace(s[k])
    ensures r == [] <==> AllWhitespace(s)
    ensures r != [] ==> !IsWhitespace(r[0]) && !IsWhitespace(r[|r| - 1])
  {
    var i, j := TrimFrom(s), TrimTo(s);
    assert i < j ==> !IsWhitespace(s[i]);
    s[i..j]
  }

  /** Trimming a string without whitespace at either end is the identity. */
  lemma TrimUnchanged(s: string)
    requires s == [] || (!IsWhitespace(s[0]) && !IsWhitespace(s[|s| - 1]))
    ensures Trim(s) == s
  {
  }

  /** Trimming twice is trimming once. */
  lemma TrimIdempotent(s: string)
    ensures Trim(Trim(s)) == Trim(s)
  {
    TrimUnchanged(Trim(s));
  }

  // ---------------------------------------------------------------------------
  // Decimal numbers
  // ---------------------------------------------------------------------------

  predicate IsDigit(c: char) {
    '0' <= c <= '9'
  }

  predicate AllDigits(s: string) {
    forall k :: 0 <= k < |s| ==> IsDigit(s[k])
  }

  function DigitChar(d: nat): (c: char)
    requires d < 10
    ensures IsDigit(c)
  {
    ('0' as int + d) as char
  }

  function DigitValue(c: char): (d: nat)
    requires IsDigit(c)
    ensures d < 10
  {
    c as int - '0' as int
  }

  /** The decimal rendering of a non-negative number, as `${n}` produces it. */
  function NatToString(n: nat): (r: string)
    ensures |r| >= 1 && AllDigits(r)
    ensures r[0] == '0' ==> n == 0
  {
    if n < 10 then [DigitChar(n)] else NatToString(n / 10) + [DigitChar(n % 10)]
  }

  /** The value of a string of decimal digits, most significant first. */
  function DigitsValue(s: string): nat
    requires AllDigits(s)
  {
    if s == [] then 0 else DigitsValue(s[..|s| - 1]) * 10 + DigitValue(s[|s| - 1])
  }

  /** Length of the run of decimal digits at the start of `s`. */
  function LeadingDigits(s: string): (n: nat)
    ensures n <= |s|
    ensures AllDigits(s[..n])
    ensures n < |s| ==> !IsDigit(s[n])
  {
    if |s| > 0 && IsDigit(s[0]) then
      var m := LeadingDigits(s[1..]);
      assert s[..m + 1] == [s[0]] + s[1..][..m];
      m + 1
    else 0
  }

  /**
   `parseInt(s, 10)` on the strings a URL port can hold: the value of the leading run of
   decimal digits, or `None` (JavaScript's `NaN`) when `s` does not start with a digit.
   */
  function ParseInt(s: string): (r: Option<nat>)
    ensures r.None? <==> (s == [] || !IsDigit(s[0]))
    ensures AllDigits(s) && s != [] ==> r == Some(DigitsValue(s))
  {
    var n := LeadingDigits(s);
    assert AllDigits(s) ==> n == |s| && s[..n] == s;
    if n == 0 then None else Some(DigitsValue(s[..n]))
  }

  lemma {:induction false} DigitsValueOfNatToString(n: nat)
    ensures DigitsValue(NatToString(n)) == n
  {
    if n >= 10 {
      var r := NatToString(n);
      DigitsValueOfNatToString(n / 10);
      assert r[..|r| - 1] == NatToString(n / 10);
    }
  }

  /** Reading back the decimal rendering of a number gives that number. */
  lemma ParseIntOfNatToString(n: nat)
    ensures ParseInt(NatToString(n)) == Some(n)
  {
    DigitsValueOfNatToString(n);
  }

  /** Equal decimal renderings come from equal numbers. */
  lemma NatToStringInjective(m: nat, n: nat)
    requires NatToString(m) == NatToString(n)
    ensures m == n
  {
    ParseIntOfNatToString(m);
    ParseIntOfNatToString(n);
  }

  /** The form `${n}` gives a number: digits only, with no leading zero except in `0` itself. */
  predicate CanonicalDigits(t: string) {
    t != [] && AllDigits(t) && (t[0] == '0' ==> |t| == 1)
  }

  /** Every rendering is canonical. */
  lemma CanonicalNatToString(n: nat)
    ensures CanonicalDigits(NatToString(n))
  {
    var r := NatToString(n);
    if r[0] == '0' {
      assert n == 0;
    }
  }

  /** A string of digits that starts with a non-zero digit has a positive value. */
  lemma {:induction false} DigitsValuePositive(t: string)
    requires t != [] && AllDigits(t) && t[0] != '0'
    ensures DigitsValue(t) >= 1
  {
    if |t| > 1 {
      var p := t[..|t| - 1];
      assert p[0] == t[0];
      DigitsValuePositive(p);
    }
  }

  /** Every canonical string of digits is the rendering of its own value. */
  lemma {:induction false} NatToStringOfCanonical(t: string)
    requires CanonicalDigits(t)
    ensures NatToString(DigitsValue(t)) == t
  {
    var last := t[|t| - 1];
    assert DigitChar(DigitValue(last)) == last;
    if |t| > 1 {
      var p := t[..|t| - 1];
      assert p[0] == t[0] != '0';
      DigitsValuePositive(p);
      NatToStringOfCanonical(p);
      var v := DigitsValue(t);
      assert v == DigitsValue(p) * 10 + DigitValue(last);
      assert v / 10 == DigitsValue(p) && v % 10 == DigitValue(last);
      assert t == p + [last];
    }
  }

  // ---------------------------------------------------------------------------
  // Searching
  // ---------------------------------------------------------------------------

  /** `indexOf`: the position of the first occurrence of a character, if any. */
  function FirstIndexOf(s: string, c: char): (r: Option<nat>)
    ensures r.None? <==> c !in s
    ensures r.Some? ==> r.value < |s| && s[r.value] == c && c !in s[..r.value]
  {
    if s == [] then None
    else if s[0] == c then Some(0)
    else match FirstIndexOf(s[1..], c)
      case None => None
      case Some(i) =>
        assert s[..i + 1] == [s[0]] + s[1..][..i];
        Some(i + 1)
  }

  lemma FirstIndexOfAt(s: string, c: char, i: nat)
    requires i < |s| && s[i] == c && c !in s[..i]
    ensures FirstIndexOf(s, c) == Some(i)
  {
  }
}

=== FILE: wrappers.dfy ===
/** The null-or-value shape that the extension's JavaScript expresses with `null`. */
module Wrappers {

  /** `None` stands for the source's `null` (or a thrown-and-caught error), `Some` for a value. */
  datatype Option<+T> = None | Some(value: T)
}
